=== FILE: README.md ===
# zramstats in Dafny

`zramstats.py` reports the memory statistics of the compressed RAM disk
`zram0`. It reads the eight numbers of `/sys/block/zram0/mm_stat` and the
swap table `/proc/swaps`. With `--json` it prints the statistics as a JSON
object. Otherwise it prints a text report with three parts:

- one line per statistic, where values above 10000 are human-readable sizes;
- the field documentation (`-v`) or an empty line;
- one line per swap device.

This project models the pure part of that program on strings, in seven
modules:

- `Wrappers` defines `Option` and `Result`.
- `Text` defines the Python `str` operations the program uses: `split()`,
  `split("\n")`, `strip()`, `rstrip(c)` and left-justification to a width.
- `Numbers` defines Python's `int(token)` and `str(int)`.
- `Units` models `size`: the loop that picks a unit from B to PB, and the
  trimming of the `"%.2f"` rendering.
- `MmStat` models the `mm_stat` line: eight columns in a fixed order. The
  errors are a missing column, a column that is not an integer, and a zero
  `compr_data_size`.
- `Swaps` models the `/proc/swaps` table: the header line is dropped, and
  each data line gives its name, size and usage, in bytes.
- `Report` models the text layout, the 10000 threshold, and `main` from
  file contents to output.

Real numbers stand for the floats. Dividing by 1024 is exact in binary
floating point, so the unit chosen for a byte count is the one the program
chooses, and the value it formats is the nearest double to the exact
scaled value. The `"%.2f"` formatting and Python's `str` of a float are function
parameters (`fixed2`, `showFloat`). The properties are stated for every such
function, or for the values they give on the inputs an example uses.

## Model

| member | source | states |
|---|---|---|
| Units.Scale | zramstats.py:30-33 | The loop ends at a unit no later than PB. The value times 1024 per step taken is the input. It stops below 1024 or at PB, and a unit above the start is reached only by a value at least that power of 1024. |
| Units.UnitOf | zramstats.py:29-33 | The chosen unit is the unit index of the input: PB or below the next power of 1024, and at least its own power unless it is B. The scaled value times 1024^unit gives the input back. Below 1024 the input is kept as it is, in bytes. |
| Units.UnitIndexUnique | zramstats.py:30-33 | Only one unit satisfies those bounds, so the loop picks the largest unit whose size the value reaches. |
| Units.NatUnitBounds | zramstats.py:30-33 | The same loop on a natural number with integer division by 1024 stops within B..PB. The byte count lies between 1024^u and 1024^(u+1), except at the ends. |
| Units.NatUnitAgrees | zramstats.py:30-33 | For a byte count, the integer-division loop and the exact-division loop pick the same unit. |
| Units.NatPow1024 | zramstats.py:31-32 | The integer power of 1024 equals the real power the loop divides by. |
| Units.UnitKilo | zramstats.py:31-33 | 1024 bytes are 1 KB and 1536 bytes are 1.5 KB. |
| Units.UnitMega | zramstats.py:31-33 | 1024 KB are 1 MB. |
| Units.UnitPeta | zramstats.py:31-33 | 5 * 1024^5 bytes are 5 PB. |
| Units.UnitBeyondPeta | zramstats.py:26-33 | 1024^6 bytes are 1024 PB: the index never goes past the last suffix. |
| Units.TrimFixed | zramstats.py:34 | The result is a prefix of the rendering and never ends in a point. For a `d.dd` rendering it is: the integer part when both decimals are zero; one decimal when only the last is zero; otherwise the whole rendering. |
| Units.TrimFixedCases | zramstats.py:34 | The two `rstrip` calls give exactly those three cases. |
| Units.TrimFixedKeepsIntegerPart | zramstats.py:34 | Trimming never removes a digit before the point. The result ends in a digit, and in a non-zero one when it keeps a point. |
| Units.TrimFixedExamples | zramstats.py:34 | "10.00" becomes "10", "0.00" becomes "0", and "1023.00" becomes "1023". |
| Units.TrimFixedDecimalExamples | zramstats.py:34 | "2.50" becomes "2.5", and "2.34" is kept. |
| Units.Render | zramstats.py:34-35 | A trimmed `d.dd` rendering followed by a space and a suffix has the shape of a size. |
| Units.RenderIsSize | zramstats.py:35 | A trimmed number, a space and one of the six suffixes make a size. |
| Units.Size | zramstats.py:29-35 | The output is the trimmed rendering of the input scaled to its unit index, then a space, then that unit's suffix. It is a well-formed size whenever the rendering is a `d.dd` string. |
| Units.SizeBelowKilo | zramstats.py:29-35 | size(1023) is "1023 B". |
| Units.SizeKilo | zramstats.py:29-35 | size(1536) is "1.5 KB". |
| Units.SizePeta | zramstats.py:29-35 | size(5 * 1024^5) is "5 PB". |
| Units.SizeBeyondPeta | zramstats.py:26-35 | size(1024^6) is "1024 PB". |
| Text.RStrip | zramstats.py:34 | `rstrip(c)` gives the longest prefix not ending in `c` that is followed only by `c`. |
| Text.RStripUnique | zramstats.py:34 | Those facts determine the result of `rstrip`. |
| Text.Strip | zramstats.py:43 | `strip()` gives a middle slice of its input with whitespace on both sides. The slice starts and ends with a non-space. |
| Text.StripBounds | zramstats.py:43 | The leading run of whitespace ends before or at the trailing run. Everything outside the cut is whitespace, and the characters at the cut are not. |
| Text.Words | zramstats.py:43 | `split()` gives non-empty, whitespace-free tokens; Text.WordsAreRuns shows they are exactly the maximal non-whitespace runs. |
| Text.WordsAreRuns | zramstats.py:43 | `split()` gives exactly the maximal runs of non-whitespace: `ws` are the tokens of a text if and only if each is a non-empty whitespace-free word and the text is those words with whitespace before, a non-empty whitespace run of its own in each gap, and whitespace after. |
| Text.LayoutOf | zramstats.py:43 | Every text is its `split()` tokens laid out that way: the whitespace before, between and after them can be read off the text. |
| Text.WordsOfLayout | zramstats.py:43 | Words laid out with whitespace before, between and after them split back to those words. |
| Text.WordsOfJoinSeps | zramstats.py:43 | Words joined with a non-empty whitespace run in each gap, the runs differing from gap to gap, split back to those words. |
| Text.WordsOfStrip | zramstats.py:43 | `strip()` before `split()` changes nothing: `split()` ignores surrounding whitespace. |
| Text.WordsOfJoin | zramstats.py:43 | `split()` of tokens joined by Python's `sep.join`, with any non-empty whitespace separator, gives back the tokens. |
| Text.WordsOfPadded | zramstats.py:43 | Whitespace before and after a text does not change its `split()` tokens. |
| Text.Split | zramstats.py:57 | `split(c)` gives at least one part, and no part contains `c`. Joining the parts with `c` gives the input back. |
| Text.SplitJoin | zramstats.py:57 | Splitting c-free parts joined by `c` gives back the parts. |
| Text.LJust | zramstats.py:73 | Padding to a width keeps the text as a prefix, adds only spaces, and gives the width or the text's own length, whichever is larger. |
| Text.LJustRoundTrip | zramstats.py:73 | For text that does not end in a space, stripping the padding gives the text back. |
| Numbers.ParseInt | zramstats.py:45-52 | `int(token)` accepts only an optional sign, then digits and underscores, ending in a digit. A plain digit string gives its decimal value, and the sign decides the sign of the result. |
| Numbers.ShowNat | zramstats.py:72-73 | `str` of a natural number is a non-empty digit string whose decimal value is the number, with no leading zero except for 0 itself. |
| Numbers.ShowInt | zramstats.py:72-73 | `str` of an integer is in canonical form: an optional minus sign, present exactly for negative numbers, then digits without a leading zero. |
| Numbers.LiteralValue | zramstats.py:45-52 | `int` of a canonical literal is the decimal value of its digits, negated exactly when it has a minus sign. |
| Numbers.CanonicalDigitsUnique | zramstats.py:72-73 | Two digit strings without a leading zero, or equal to "0", that have the same value are the same string. |
| Numbers.IntLiteralUnique | zramstats.py:72-73 | `str(n)` is the only canonical literal that `int` reads as `n`. |
| Numbers.ParseShowInt | zramstats.py:45-52 | `int(str(n)) == n` for every integer. |
| Numbers.ShowIntIsWord | zramstats.py:43 | `str(n)` is a single whitespace-free token. |
| MmStat.ParseColumns | zramstats.py:45-52 | The columns parse exactly when every remaining token up to the eighth exists and is an integer. Column i is then `int` of token i. Otherwise the error is the first failure in evaluation order. |
| MmStat.ParseWords | zramstats.py:44-53 | Success exactly when the first eight tokens are integers and token 1 is not zero. Field k is then `int(token k)`. A zero compressed size is reported only when all eight columns parse, and any other failure is the first missing or non-numeric column. |
| MmStat.Parse | zramstats.py:43-53 | Reading the file text is reading its `split()` tokens: the `strip()` makes no difference. |
| MmStat.CompressionRatio | zramstats.py:53 | The ratio times the compressed size is the original size. |
| MmStat.ParseIgnoresExtraTokens | zramstats.py:43-52 | Tokens after the eighth do not change the result. |
| MmStat.ParseFormat | zramstats.py:43-53 | A single-space line written from any statistics with a non-zero compressed size reads back as those statistics. |
| MmStat.ParseJoined | zramstats.py:43-53 | Statistics written with one whitespace separator repeated between the columns read back as those statistics. |
| MmStat.ParsePadded | zramstats.py:43-53 | Statistics read back however the line is spaced: whitespace before the first and after the last column, and a run of its own in each gap, as the kernel's right-aligned fields of width 8 give. Any further words after the eighth column, such as a ninth column, are read past. |
| MmStat.ParseShown | zramstats.py:44-53 | The tokens `str` gives for eight values, the second non-zero, read back as the record of those values. |
| MmStat.ParseWordsOf | zramstats.py:44-53 | Tokens whose first eight parse to given values read as the record of those values. |
| MmStat.ZeroComprSizeFails | zramstats.py:44-53 | When all eight columns parse and `compr_data_size` is 0, reading fails with the division by zero, whatever the other columns hold. |
| MmStat.ParseExample | zramstats.py:43-53 | "100 50 60 1000 70 5 2 0" gives orig 100, compressed 50, … huge_pages 0, and a ratio of 2. |
| Swaps.ParseLine | zramstats.py:59-61 | A data line succeeds exactly when it has at least four tokens and tokens 2 and 3 are integers. The name is token 0, and size and used are 1024 times tokens 2 and 3. A failure is the first one in evaluation order, `s[0]`, then `int(s[2])`, then `int(s[3])`: a missing column or the non-integer token of that line. |
| Swaps.ParseEach | zramstats.py:58-61 | Each line is read with its own line number, in file order. |
| Swaps.MapNumbered | zramstats.py:58-61 | Each element is mapped with its own number, counting from the start value. |
| Swaps.Collect | zramstats.py:58-62 | Gives all values in order when every line succeeds; otherwise gives the first failure. |
| Swaps.ParseLines | zramstats.py:58-62 | Succeeds exactly when every data line parses, with entry k from line k in file order. Otherwise it fails with the error of the first line that does not parse. |
| Swaps.FirstFailingLine | zramstats.py:58-62 | A failure is the error of a line after which no earlier line failed. |
| Swaps.DataLines | zramstats.py:57 | The data lines contain no newline. |
| Swaps.DataLinesRebuild | zramstats.py:57 | One first line without a newline, followed by the data lines, joined by newlines, makes up the stripped text: exactly the first line is dropped. |
| Swaps.Parse | zramstats.py:57-62 | The table parses exactly when every data line does, with one entry per data line in file order. |
| Swaps.HeaderOnly | zramstats.py:57-62 | A stripped table without a newline, empty or header only, has no swap devices and is not an error. |
| Swaps.EmptyTable | zramstats.py:57-62 | An empty file has no swap devices. |
| Swaps.HeaderOnlyExample | zramstats.py:57-62 | The kernel's header line, with its runs of tabs, alone has no swap devices. |
| Swaps.ParseFormatRow | zramstats.py:59-61 | A row written with single tabs reads as its name and its size and usage in bytes. |
| Swaps.ParseSpacedRow | zramstats.py:59-61 | A row reads as its entry however it is spaced: whitespace before and after, and a run of its own in each of the four gaps, as in the kernel's space-padded name and runs of tabs. |
| Swaps.ParseFormatTable | zramstats.py:57-62 | A table of a header and single-tab rows reads as the rows' entries, in order. |
| Swaps.ParseRowWords | zramstats.py:59-61 | A line whose tokens are a kernel row's columns reads as that row's entry, in bytes. |
| Swaps.ParseFormatRows | zramstats.py:58-62 | Formatted rows parse to their entries. |
| Report.ValueText | zramstats.py:69-72 | An integer is shown through `size` exactly when it is above 10000, and the shown text has a space exactly then. At or below the limit, the text is a canonical integer literal that reads back as the value, so it is `str` of the value. Above it, the unit is KB or larger. |
| Report.RatioText | zramstats.py:69-72 | Above 10000 the ratio is shown through `size` in KB or larger, with a space. Otherwise it is `str` of the float. |
| Report.SizeHasSpace | zramstats.py:35 | Every output of `size` contains a space. |
| Report.SizeAboveKilo | zramstats.py:29-35 | A value above 10000 is never shown in bytes. |
| Report.ShowIntHasNoSpace | zramstats.py:72 | `str` of an integer has no space. |
| Report.RawAtLimit | zramstats.py:69-72 | 10000 prints as "10000". |
| Report.SizedAboveLimit | zramstats.py:69-70 | 10001 prints as "9.77 KB". |
| Report.StatLine | zramstats.py:73 | `f"{k:18}{h}"` is the key, padded with spaces to 18 columns, then the value text. A longer key is not padded. |
| Report.ReadStatLine | zramstats.py:73 | A statistic line cut at column 18 gives back the key, once its padding is stripped, and the value text. |
| Report.StatLines | zramstats.py:68-73 | Nine lines: the eight columns in file order under their keys, then the compression ratio. Each holds its key in the 18-wide name column and its value text after it. |
| Report.SwapColumns | zramstats.py:83 | `f"{name:18}{used:8} [{siz}]"` is the name padded with spaces to 18 columns, then the used text padded with spaces to 8 more, then the size in brackets after a space. Longer texts are not padded. |
| Report.SwapLine | zramstats.py:81-83 | A device line has that layout, with used and size each given by `size`. |
| Report.SwapLines | zramstats.py:80-83 | One line per device, in table order. |
| Report.ReadSwapColumns | zramstats.py:83 | A device line starts with the name and ends with the size in brackets. When the name fits, the name column gives it back, the used text follows at column 18, spaces fill it to 8 characters, and " [" starts at column 18 plus the larger of 8 and the used text's length. |
| Report.ReadSwapLine | zramstats.py:80-83 | The same for the line of a device, with both sizes from `size`: the padding and the bracket position included. |
| Report.TextReport | zramstats.py:68-83 | The nine statistic lines, then the docs or an empty line, then one line per device. |
| Report.ReportReadsBack | zramstats.py:68-73 | In a report, line k gives back key k from its name column. A raw value parses back as the statistic, and a space appears exactly when the value is above 10000. |
| Report.ReportSwapLine | zramstats.py:80-83 | Device k is on the line after the statistics and the separator. |
| Report.NoDevicesReport | zramstats.py:57-83 | Without swap devices the report is the statistics and the separator. |
| Report.Run | zramstats.py:38-83 | Succeeds exactly when both files parse, and a bad `mm_stat` is reported before the swap table. JSON mode returns the parsed statistics, and so still fails on a bad swap table. Text mode returns the text report of the parsed statistics and devices: one line per statistic, one separator and one per device. |
| Report.RunOnFormatted | zramstats.py:42-83 | Files written with single spaces and single tabs for given statistics and rows give those statistics in JSON mode, and their report in text mode. |
| Report.JsonNeedsSwaps | zramstats.py:56-66 | A swap table that does not parse stops the program in JSON mode too, with the swap error, because the table is read before the mode is checked. |

## Left out

- Opening and reading `/sys/block/zram0/mm_stat` and `/proc/swaps` (lines
  42 and 56). The model's parameters are the strings `f.read()` returns:
  text mode has already decoded the bytes and turned `"\r\n"` and `"\r"`
  into `"\n"`.
- Argument parsing (lines 86-91). `json` and `verbose` are parameters.
- `print` and `json.dumps` (lines 65, 73, 76-78, 83). A report is the
  sequence of strings passed to `print`, and the JSON output is the parsed
  record.
- The `docs` text (lines 5-24) is a parameter: it is a constant with no
  behaviour.
- Text.Words: its own ensures gives only the token shape. The full
  characterisation, in both directions, that the tokens are exactly the
  maximal non-whitespace runs, is proved by Text.WordsAreRuns.
- Units.Size: the `"%.2f"` rounding is the parameter `fixed2` and is not
  modelled. `fixed2` receives the exact scaled value and stands for
  `"%.2f"` of its nearest double. Above 2^53 Python rounds the byte count
  to a double at the first `/= 1024.0`; since dividing by 1024 is exact,
  what it formats is the nearest double to the exact quotient, and the
  unit is unchanged because the powers of 1024 up to PB are doubles. The
  examples state the rendering they rely on as a precondition.
- Report.RatioText: Python's `str` of a float is the parameter `showFloat`
  and is not modelled.
- MmStat.CompressionRatio: the ratio is the exact quotient, not its
  nearest float. The `> 10000` comparison on the ratio is therefore exact, and
  may differ from the float comparison when the ratio is within one
  rounding step of 10000. For the same reason the `>= 1024` tests inside
  `size` of the ratio run on the exact quotient, so the unit can differ
  when the float quotient rounds up to a power of 1024.
- Numbers.ParseInt: accepts only ASCII digits. Python's `int` also
  accepts other Unicode decimal digits. Surrounding whitespace, which
  `int` also accepts, cannot occur in a token of `split()`. Any number of
  digits is accepted; Python 3.11 and later raise `ValueError` for more
  than 4300 digits (the `int_max_str_digits` limit).
- `OverflowError` is not modelled, because reals never overflow. Python
  raises it in `size` when a statistic above 10000, or a swap device's
  size or usage in bytes, is too large for a double (about 2^1024), at the
  conversion in `nbytes /= 1024.0`. At
  line 53 `int / int` converts no operand; it raises only when the
  quotient itself is too large for a double, so `2^1100 / 2^1100` is 1.0.
- Swaps.Parse follows the code, which does not skip blank lines. The
  table format suggests that only non-empty lines hold devices. But a blank
  line between data lines has no tokens, so `s[0]` raises `IndexError`.
  The model reports this as a missing column 0 of that line, and the whole
  program fails.
- Report.ReadSwapColumns: the read-back of the name column is stated only
  for names shorter than the 18-wide column. A longer name gets no padding
  and runs straight into the next column, as the program prints it; the
  layout of such a line is still stated by Report.SwapColumns.

=== FILE: mmstat.dfy ===
/** The zram `mm_stat` line (lines 42-53): eight whitespace-separated
    integers, read into named fields in a fixed column order. */
module MmStat {
  import opened Wrappers
  import opened Text
  import opened Numbers

  /** The eight columns of `mm_stat`, in file order. */
  datatype MemStats = MemStats(
    origDataSize: int,
    comprDataSize: int,
    memUsedTotal: int,
    memLimit: int,
    memUsedMax: int,
    samePages: int,
    pagesCompacted: int,
    hugePages: int)
  {
    /** The fields in column order. */
    function Fields(): (fs: seq<int>)
      ensures |fs| == ColumnCount
      ensures fs[0] == origDataSize && fs[1] == comprDataSize
    {
      [origDataSize, comprDataSize, memUsedTotal, memLimit,
       memUsedMax, samePages, pagesCompacted, hugePages]
    }
  }

  const ColumnCount: nat := 8

  /** The names the program prints for the columns, in the same order. */
  const FieldNames: seq<string> := [
    "orig_data_size", "compr_data_size", "mem_used_total", "mem_limit",
    "mem_used_max", "same_pages", "pages_compacted", "huge_pages"]

  /** Why reading `mm_stat` fails: Python's `IndexError`, `ValueError` and
      `ZeroDivisionError`. */
  datatype StatError =
    | MissingField(index: nat)
    | NotANumber(index: nat, token: string)
    | ZeroComprSize

  /** The record whose fields, in column order, are `vs`. */
  function FromFields(vs: seq<int>): (s: MemStats)
    requires |vs| == ColumnCount
    ensures s.Fields() == vs
  {
    MemStats(vs[0], vs[1], vs[2], vs[3], vs[4], vs[5], vs[6], vs[7])
  }

  /** The first `ColumnCount` tokens are present and are integers. */
  predicate ColumnsParse(ws: seq<string>) {
    |ws| >= ColumnCount && forall k :: 0 <= k < ColumnCount ==> ParseInt(ws[k]).Some?
  }

  /** Tokens `k` up to `i` (exclusive) are integers. */
  predicate ParsesUpTo(ws: seq<string>, k: nat, i: nat) {
    i <= |ws| && forall j :: k <= j < i ==> ParseInt(ws[j]).Some?
  }

  /** `e` is the error Python meets first when it evaluates `int(d[j])` for
      `j` from `k` upward. */
  predicate IsFirstError(ws: seq<string>, k: nat, e: StatError) {
    match e
    case MissingField(i) => k <= i < ColumnCount && i == |ws| && ParsesUpTo(ws, k, i)
    case NotANumber(i, t) =>
      k <= i < ColumnCount && i < |ws| && t == ws[i] && ParseInt(t).None? && ParsesUpTo(ws, k, i)
    case ZeroComprSize => false
  }

  /** `int(d[j])` for `j` from `k` to 7, in that order, stopping at the first
      failure (lines 45-52). */
  function ParseColumns(ws: seq<string>, k: nat): (r: Result<seq<int>, StatError>)
    requires k <= ColumnCount && k <= |ws|
    ensures r.Success? <==> ParsesUpTo(ws, k, ColumnCount)
    ensures r.Success? ==> (|r.value| == ColumnCount - k
      && forall i :: 0 <= i < |r.value| ==> ParseInt(ws[k + i]) == Some(r.value[i]))
    ensures r.Failure? ==> IsFirstError(ws, k, r.error)
    decreases ColumnCount - k
  {
    if k == ColumnCount then Success([])
    else if k == |ws| then Failure(MissingField(k))
    else match ParseInt(ws[k])
      case None => Failure(NotANumber(k, ws[k]))
      case Some(v) =>
        match ParseColumns(ws, k + 1)
        case Failure(e) =>
          assert IsFirstError(ws, k, e) by { FirstErrorExtends(ws, k, e); }
          Failure(e)
        case Success(vs) =>
          assert forall i :: 0 < i <= |vs| ==> ([v] + vs)[i] == vs[i - 1];
          Success([v] + vs)
  }

  /** An error first met from `k + 1` on is the first from `k` on when
      token `k` parses. */
  lemma FirstErrorExtends(ws: seq<string>, k: nat, e: StatError)
    requires k < |ws| && ParseInt(ws[k]).Some?
    requires IsFirstError(ws, k + 1, e)
    ensures IsFirstError(ws, k, e)
  {
  }

  /** The statistics from the tokens of `mm_stat`: the first eight are the
      columns, later ones are ignored, and a zero `compr_data_size` is the
      division by zero of line 53. */
  function ParseWords(ws: seq<string>): (r: Result<MemStats, StatError>)
    ensures r.Success? <==> ColumnsParse(ws) && ParseInt(ws[1]).value != 0
    ensures r.Success? ==> forall k :: 0 <= k < ColumnCount ==>
      Some(r.value.Fields()[k]) == ParseInt(ws[k])
    ensures r.Success? ==> r.value.comprDataSize != 0
    ensures r.Failure? ==> (r.error == ZeroComprSize <==> ColumnsParse(ws))
    ensures r.Failure? && r.error != ZeroComprSize ==> IsFirstError(ws, 0, r.error)
  {
    match ParseColumns(ws, 0)
    case Failure(e) => Failure(e)
    case Success(vs) =>
      if vs[1] == 0 then Failure(ZeroComprSize) else Success(FromFields(vs))
  }

  /** Lines 43-53: `f.read().strip().split()`, then the columns. */
  function Parse(text: string): (r: Result<MemStats, StatError>)
    ensures r == ParseWords(Words(text))
  {
    WordsOfStrip(text);
    ParseWords(Words(Strip(text)))
  }

  /** The compression ratio of line 53, as the exact quotient the float
      division approximates. */
  function CompressionRatio(s: MemStats): (r: real)
    requires s.comprDataSize != 0
    ensures r * (s.comprDataSize as real) == s.origDataSize as real
  {
    (s.origDataSize as real) / (s.comprDataSize as real)
  }

  /** An `mm_stat` line holding `s`: the columns in order, separated by
      single spaces. */
  function Format(s: MemStats): (text: string) {
    Join(ShowAll(s.Fields()), " ")
  }

  function ShowAll(vs: seq<int>): (ts: seq<string>)
    ensures |ts| == |vs|
    ensures forall k :: 0 <= k < |vs| ==> ts[k] == ShowInt(vs[k])
  {
    if vs == [] then [] else [ShowInt(vs[0])] + ShowAll(vs[1..])
  }

  /** Only the first eight tokens matter. */
  lemma ParseIgnoresExtraTokens(ws: seq<string>, extra: seq<string>)
    requires |ws| >= ColumnCount
    ensures ParseWords(ws + extra) == ParseWords(ws)
  {
    var ws' := ws + extra;
    assert forall k :: 0 <= k < |ws| ==> ws'[k] == ws[k];
    ParseColumnsAgree(ws, ws', 0);
  }

  lemma {:induction false} ParseColumnsAgree(ws: seq<string>, ws': seq<string>, k: nat)
    requires k <= ColumnCount
    requires |ws| >= ColumnCount && |ws'| >= ColumnCount
    requires forall j :: 0 <= j < ColumnCount ==> ws[j] == ws'[j]
    ensures ParseColumns(ws, k) == ParseColumns(ws', k)
    decreases ColumnCount - k
  {
    if k < ColumnCount {
      ParseColumnsAgree(ws, ws', k + 1);
    }
  }

  /** Reading back a formatted line gives the record, whenever the record
      has a non-zero compressed size. */
  lemma ParseFormat(s: MemStats)
    requires s.comprDataSize != 0
    ensures Parse(Format(s)) == Success(s)
  {
    ParseJoined(s, " ");
  }

  /** The columns read back when one whitespace separator, of any length,
      sits between each pair; `ParsePadded` lets every gap differ. */
  lemma ParseJoined(s: MemStats, sep: string)
    requires s.comprDataSize != 0
    requires sep != [] && AllSpace(sep)
    ensures Parse(Join(ShowAll(s.Fields()), sep)) == Success(s)
  {
    var ts := ShowAll(s.Fields());
    forall k | 0 <= k < |ts|
      ensures IsWord(ts[k])
    {
      ShowIntIsWord(s.Fields()[k]);
    }
    WordsOfJoin(ts, sep);
    ParseShown(s.Fields());
    assert FromFields(s.Fields()) == s;
  }

  /** The columns read back however they are padded: whitespace before
      the first column, after the last, and a run of its own in each gap.
      The kernel's right-aligned fields of width 8 give such a line, with
      gaps of different lengths. Words after the eighth column, such as the
      ninth column newer kernels print, are read past. */
  lemma ParsePadded(s: MemStats, extra: seq<string>, lead: string, seps: seq<string>, trail: string)
    requires s.comprDataSize != 0
    requires forall i :: 0 <= i < |extra| ==> IsWord(extra[i])
    requires AllSpace(lead) && AllSpace(trail)
    requires |seps| == ColumnCount - 1 + |extra|
    requires forall i :: 0 <= i < |seps| ==> seps[i] != [] && AllSpace(seps[i])
    ensures Parse(lead + JoinSeps(ShowAll(s.Fields()) + extra, seps) + trail) == Success(s)
  {
    var ts := ShowAll(s.Fields()) + extra;
    forall k | 0 <= k < |ts|
      ensures IsWord(ts[k])
    {
      if k < ColumnCount { ShowIntIsWord(s.Fields()[k]); }
    }
    forall k | 0 <= k < ColumnCount
      ensures ParseInt(ts[k]) == Some(s.Fields()[k])
    {
      ParseShowInt(s.Fields()[k]);
    }
    WordsOfLayout(lead + JoinSeps(ts, seps) + trail, ts, lead, seps, trail);
    ParseWordsOf(ts, s.Fields());
    FieldsDetermine(FromFields(s.Fields()), s);
  }

  /** Eight rendered integers read back as the record they came from. */
  lemma ParseShown(vs: seq<int>)
    requires |vs| == ColumnCount && vs[1] != 0
    ensures ParseWords(ShowAll(vs)) == Success(FromFields(vs))
  {
    var ts := ShowAll(vs);
    forall k | 0 <= k < |ts|
      ensures ParseInt(ts[k]) == Some(vs[k])
    {
      ParseShowInt(vs[k]);
    }
    ParseWordsOf(ts, vs);
  }

  /** Tokens that read as `vs`, with a non-zero second value, parse to the
      record of `vs`. */
  lemma ParseWordsOf(ws: seq<string>, vs: seq<int>)
    requires |ws| >= ColumnCount && |vs| == ColumnCount && vs[1] != 0
    requires forall k :: 0 <= k < ColumnCount ==> ParseInt(ws[k]) == Some(vs[k])
    ensures ParseWords(ws) == Success(FromFields(vs))
  {
    assert ColumnsParse(ws);
    var r := ParseWords(ws);
    assert r.value.Fields() == vs;
    FieldsDetermine(r.value, FromFields(vs));
  }

  /** A record is determined by its fields. */
  lemma FieldsDetermine(a: MemStats, b: MemStats)
    requires a.Fields() == b.Fields()
    ensures a == b
  {
    assert a.Fields()[2] == b.Fields()[2] && a.Fields()[3] == b.Fields()[3];
    assert a.Fields()[4] == b.Fields()[4] && a.Fields()[5] == b.Fields()[5];
    assert a.Fields()[6] == b.Fields()[6] && a.Fields()[7] == b.Fields()[7];
  }

  /** `"100 50 60 1000 70 5 2 0"` reads as these eight values, and its
      compression ratio is exactly 2. */
  lemma ParseExample(text: string, s: MemStats)
    requires text == "100 50 60 1000 70 5 2 0"
    requires s == MemStats(100, 50, 60, 1000, 70, 5, 2, 0)
    ensures Parse(text) == Success(s)
    ensures CompressionRatio(s) == 2.0
  {
    var ts := ["100", "50", "60", "1000", "70", "5", "2", "0"];
    JoinExample(ts);
    ExampleParses(ts, s.Fields());
    FieldsDetermine(FromFields(s.Fields()), s);
  }

  /** The example's tokens, joined by spaces, read as the example's values. */
  lemma ExampleParses(ts: seq<string>, fs: seq<int>)
    requires ts == ["100", "50", "60", "1000", "70", "5", "2", "0"]
    requires fs == [100, 50, 60, 1000, 70, 5, 2, 0]
    ensures Parse(Join(ts, " ")) == Success(FromFields(fs))
  {
    ExampleTokensParse(ts, fs);
    ParseTokensJoined(ts, fs, " ");
  }

  /** Eight tokens that read as `vs`, joined by whitespace, parse to the
      record of `vs`. */
  lemma ParseTokensJoined(ts: seq<string>, vs: seq<int>, sep: string)
    requires |ts| == ColumnCount && |vs| == ColumnCount && vs[1] != 0
    requires sep != [] && AllSpace(sep)
    requires forall k :: 0 <= k < ColumnCount ==> ParseInt(ts[k]) == Some(vs[k]) && IsWord(ts[k])
    ensures Parse(Join(ts, sep)) == Success(FromFields(vs))
  {
    WordsOfJoin(ts, sep);
    ParseWordsOf(ts, vs);
  }

  /** The example's tokens read as the example's values. */
  lemma ExampleTokensParse(ts: seq<string>, fs: seq<int>)
    requires ts == ["100", "50", "60", "1000", "70", "5", "2", "0"]
    requires fs == [100, 50, 60, 1000, 70, 5, 2, 0]
    ensures forall k :: 0 <= k < ColumnCount ==> ParseInt(ts[k]) == Some(fs[k]) && IsWord(ts[k])
  {
    forall k | 0 <= k < ColumnCount
      ensures ParseInt(ts[k]) == Some(fs[k]) && IsWord(ts[k])
    {
      ReadShown(ts[k], fs[k]);
    }
  }

  /** A token that is `str(n)` reads as `n`. */
  lemma ReadShown(t: string, n: int)
    requires (n, t) in {(100, "100"), (50, "50"), (60, "60"), (1000, "1000"),
                        (70, "70"), (5, "5"), (2, "2"), (0, "0")}
    ensures ParseInt(t) == Some(n) && IsWord(t)
  {
    ShowExamples();
    ParseShowInt(n);
    ShowIntIsWord(n);
  }

  lemma ShowExamples()
    ensures ShowInt(100) == "100" && ShowInt(50) == "50" && ShowInt(60) == "60"
    ensures ShowInt(1000) == "1000" && ShowInt(70) == "70"
    ensures ShowInt(5) == "5" && ShowInt(2) == "2" && ShowInt(0) == "0"
  {
    assert ShowInt(100) == "100";
    assert ShowInt(1000) == "1000";
  }

  lemma JoinExample(ts: seq<string>)
    requires ts == ["100", "50", "60", "1000", "70", "5", "2", "0"]
    ensures Join(ts, " ") == "100 50 60 1000 70 5 2 0"
  {
    JoinEight(ts, " ");
  }

  /** A join of eight parts, written out one part at a time. */
  lemma JoinEight(ts: seq<string>, sep: string)
    requires |ts| == 8
    ensures Join(ts, sep) == ts[0] + sep + (ts[1] + sep + (ts[2] + sep + (ts[3] + sep
      + (ts[4] + sep + (ts[5] + sep + (ts[6] + sep + ts[7]))))))
  {
    assert ts[7..] == [ts[7]];
    JoinStep(ts, 6, sep);
    JoinStep(ts, 5, sep);
    JoinStep(ts, 4, sep);
    JoinStep(ts, 3, sep);
    JoinStep(ts, 2, sep);
    JoinStep(ts, 1, sep);
    JoinStep(ts, 0, sep);
    assert ts[0..] == ts;
  }

  /** A zero `compr_data_size` fails however the other columns read. */
  lemma ZeroComprSizeFails(ws: seq<string>)
    requires ColumnsParse(ws) && ParseInt(ws[1]) == Some(0)
    ensures ParseWords(ws) == Failure(ZeroComprSize)
  {
  }
}

=== FILE: numbers.dfy ===
/** Python's `int(token)` on a whitespace-free token and `str(n)` on an
    integer, restricted to ASCII digits. */
module Numbers {
  import opened Wrappers
  import opened Text

  predicate IsDigit(c: char) {
    '0' <= c <= '9'
  }

  predicate AllDigits(s: string) {
    forall i :: 0 <= i < |s| ==> IsDigit(s[i])
  }

  function DigitValue(c: char): nat
    requires IsDigit(c)
  {
    (c as int) - ('0' as int)
  }

  function DigitChar(d: nat): (c: char)
    requires d < 10
    ensures IsDigit(c) && DigitValue(c) == d
  {
    (('0' as int) + d) as char
  }

  /** Value of a decimal digit string, most significant digit first. */
  function DigitsValue(s: string): nat
    requires AllDigits(s)
    decreases |s|
  {
    if s == [] then 0 else 10 * DigitsValue(s[..|s| - 1]) + DigitValue(s[|s| - 1])
  }

  /** What `int()` accepts after an optional sign: digits, with single
      underscores allowed between two digits (`"1_000"`). */
  predicate IsDigitGroup(s: string) {
    && |s| > 0
    && IsDigit(s[0])
    && IsDigit(s[|s| - 1])
    && (forall i :: 0 <= i < |s| ==> IsDigit(s[i]) || s[i] == '_')
    && (forall i :: 0 <= i < |s| - 1 ==> s[i] == '_' ==> s[i + 1] != '_')
  }

  /** The digits of `s` with the underscores left out. */
  function RemoveUnderscores(s: string): (r: string)
    requires forall i :: 0 <= i < |s| ==> IsDigit(s[i]) || s[i] == '_'
    ensures AllDigits(r)
    ensures AllDigits(s) ==> r == s
  {
    if s == [] then []
    else if s[0] == '_' then RemoveUnderscores(s[1..])
    else [s[0]] + RemoveUnderscores(s[1..])
  }

  /** Python's `int(t)` for a token without surrounding whitespace: an
      optional `+` or `-`, then a digit group. `None` is the `ValueError`. */
  function ParseInt(t: string): (r: Option<int>)
    ensures r.Some? ==> forall i :: 0 <= i < |t| ==>
      IsDigit(t[i]) || t[i] == '_' || (i == 0 && (t[i] == '+' || t[i] == '-'))
    ensures r.Some? ==> |t| > 0 && IsDigit(t[|t| - 1])
    ensures AllDigits(t) && t != [] ==> r == Some(DigitsValue(t))
    ensures r.Some? && t[0] == '-' ==> r.value <= 0
    ensures r.Some? && t[0] != '-' ==> r.value >= 0
  {
    if |t| > 0 && (t[0] == '+' || t[0] == '-') then
      var body := t[1..];
      if IsDigitGroup(body) then
        var m := DigitsValue(RemoveUnderscores(body));
        var v: int := if t[0] == '-' then -(m as int) else m;
        Some(v)
      else None
    else if IsDigitGroup(t) then Some(DigitsValue(RemoveUnderscores(t)))
    else None
  }

  /** Python's `str(n)` for `n >= 0`: decimal digits without leading zeros. */
  function ShowNat(n: nat): (s: string)
    ensures |s| > 0 && AllDigits(s)
    ensures DigitsValue(s) == n
    ensures s[0] == '0' ==> n == 0 && s == "0"
  {
    if n < 10 then [DigitChar(n)]
    else
      var s := ShowNat(n / 10) + [DigitChar(n % 10)];
      assert s[..|s| - 1] == ShowNat(n / 10);
      s
  }

  /** The form `str` gives an integer: an optional `-`, then decimal digits
      with no leading zero, except for `"0"` itself, which has no sign. */
  predicate IsIntLiteral(s: string) {
    && |s| > 0
    && var d := if s[0] == '-' then s[1..] else s;
    && |d| > 0
    && AllDigits(d)
    && (d[0] == '0' ==> d == "0" && s[0] != '-')
  }

  /** Python's `str(n)` for any integer. */
  function ShowInt(n: int): (s: string)
    ensures IsIntLiteral(s)
    ensures forall i :: 0 <= i < |s| ==> IsDigit(s[i]) || (i == 0 && s[i] == '-')
    ensures n < 0 <==> s[0] == '-'
  {
    if n < 0 then
      var s := "-" + ShowNat(-n);
      assert s[1..] == ShowNat(-n);
      s
    else ShowNat(n)
  }

  /** `int(str(n)) == n`: reading back a rendered integer gives the integer. */
  lemma ParseShowInt(n: int)
    ensures ParseInt(ShowInt(n)) == Some(n)
  {
    if n < 0 {
      var s := ShowInt(n);
      assert s[1..] == ShowNat(-n);
    }
  }

  /** `str` of an integer is one token: no whitespace in it. */
  lemma ShowIntIsWord(n: int)
    ensures IsWord(ShowInt(n))
  {
    var s := ShowInt(n);
    assert forall i :: 0 <= i < |s| ==> IsDigit(s[i]) || s[i] == '-';
  }

  /** A digit string that does not start with `0` and is not empty has a
      positive value. */
  lemma {:induction false} PositiveValue(a: string)
    requires AllDigits(a) && a != [] && a[0] != '0'
    ensures DigitsValue(a) > 0
    decreases |a|
  {
    if |a| > 1 {
      var p := a[..|a| - 1];
      assert p[0] == a[0];
      PositiveValue(p);
    }
  }

  /** Digit strings without a leading zero are determined by their value. */
  lemma {:induction false} DigitsValueInjective(a: string, b: string)
    requires AllDigits(a) && AllDigits(b)
    requires (a == [] || a[0] != '0') && (b == [] || b[0] != '0')
    requires DigitsValue(a) == DigitsValue(b)
    ensures a == b
    decreases |a|
  {
    if a == [] {
      if b != [] { PositiveValue(b); }
    } else if b == [] {
      PositiveValue(a);
    } else {
      var pa, pb := a[..|a| - 1], b[..|b| - 1];
      SameLastDigit(a, b);
      assert pa == [] || pa[0] == a[0];
      assert pb == [] || pb[0] == b[0];
      DigitsValueInjective(pa, pb);
      assert a == pa + [a[|a| - 1]] && b == pb + [b[|b| - 1]];
    }
  }

  /** Digit strings of the same value end in the same digit, and the
      digits before it have the same value. */
  lemma SameLastDigit(a: string, b: string)
    requires a != [] && b != [] && AllDigits(a) && AllDigits(b)
    requires DigitsValue(a) == DigitsValue(b)
    ensures DigitsValue(a[..|a| - 1]) == DigitsValue(b[..|b| - 1])
    ensures a[|a| - 1] == b[|b| - 1]
  {
    var d, e := DigitValue(a[|a| - 1]), DigitValue(b[|b| - 1]);
    DecimalStep(DigitsValue(a[..|a| - 1]), DigitsValue(b[..|b| - 1]), d, e);
  }

  /** One decimal step is injective: the last digit and the value of the
      digits before it are determined by the number. */
  lemma DecimalStep(x: nat, y: nat, d: nat, e: nat)
    requires d < 10 && e < 10
    requires 10 * x + d == 10 * y + e
    ensures x == y && d == e
  {
    if x < y {
      assert false;
    } else if y < x {
      assert false;
    }
  }

  /** The digits of a literal, after its sign. */
  function LiteralDigits(t: string): (d: string)
    requires IsIntLiteral(t)
    ensures d != [] && AllDigits(d) && (d[0] == '0' ==> d == "0")
    ensures t == (if t[0] == '-' then "-" + d else d)
  {
    if t[0] == '-' then t[1..] else t
  }

  /** The value `int` gives a literal in `str` form: the digits' value,
      negated after a `-`, and negative exactly when there is a `-`. */
  lemma LiteralValue(t: string)
    requires IsIntLiteral(t)
    ensures var d := LiteralDigits(t);
      && ParseInt(t) == Some(if t[0] == '-' then -(DigitsValue(d) as int) else DigitsValue(d))
      && (t[0] == '-' <==> ParseInt(t).value < 0)
  {
    var d := LiteralDigits(t);
    if t[0] == '-' {
      ParseNegativeDigits(t);
      PositiveValue(d);
    }
  }

  /** `int` of a minus sign and plain digits is the digits' value, negated. */
  lemma ParseNegativeDigits(t: string)
    requires |t| > 1 && t[0] == '-' && AllDigits(t[1..])
    ensures ParseInt(t) == Some(-(DigitsValue(t[1..]) as int))
  {
    var body := t[1..];
    assert IsDigitGroup(body);
    assert RemoveUnderscores(body) == body;
  }

  /** `str(n)` is the only text in `str` form that `int` reads as `n`. */
  lemma IntLiteralUnique(t: string, n: int)
    requires IsIntLiteral(t) && ParseInt(t) == Some(n)
    ensures t == ShowInt(n)
  {
    var u := ShowInt(n);
    ParseShowInt(n);
    SameValueSameParts(t, u);
    CanonicalDigitsUnique(LiteralDigits(t), LiteralDigits(u));
    SameDigitsSameLiteral(t, u);
  }

  /** Literals that `int` reads as the same number have the same sign and
      digits of the same value. */
  lemma SameValueSameParts(t: string, u: string)
    requires IsIntLiteral(t) && IsIntLiteral(u)
    requires ParseInt(t) == ParseInt(u)
    ensures t[0] == '-' <==> u[0] == '-'
    ensures DigitsValue(LiteralDigits(t)) == DigitsValue(LiteralDigits(u))
  {
    LiteralValue(t);
    LiteralValue(u);
  }

  /** Literals with the same sign and the same digits are the same. */
  lemma SameDigitsSameLiteral(t: string, u: string)
    requires IsIntLiteral(t) && IsIntLiteral(u)
    requires t[0] == '-' <==> u[0] == '-'
    requires LiteralDigits(t) == LiteralDigits(u)
    ensures t == u
  {
  }

  /** Non-empty digit strings without a leading zero, or `"0"`, are
      determined by their value. */
  lemma CanonicalDigitsUnique(a: string, b: string)
    requires a != [] && AllDigits(a) && (a[0] == '0' ==> a == "0")
    requires b != [] && AllDigits(b) && (b[0] == '0' ==> b == "0")
    requires DigitsValue(a) == DigitsValue(b)
    ensures a == b
  {
    if a == "0" || b == "0" {
      assert DigitsValue("0") == 0;
      if a != "0" { PositiveValue(a); }
      if b != "0" { PositiveValue(b); }
    } else {
      DigitsValueInjective(a, b);
    }
  }
}

=== FILE: report.dfy ===
/** What `main` prints (lines 38-83): the statistics as JSON, or a text
    report of one line per statistic, a separator, and one line per swap
    device. A report is the sequence of the program's `print` calls, one
    string per call, without the newline each call adds. */
module Report {
  import opened Wrappers
  import opened Text
  import opened Numbers
  import opened Units
  import MmStat
  import Swaps

  /** Width of the name column, `{k:18}` and `{s['name']:18}`. */
  const NameWidth: nat := 18

  /** Width of the used-space column, `{used:8}`. */
  const UsedWidth: nat := 8

  /** Statistics above this value are printed through `size`. */
  const RawLimit: int := 10000

  /** The key of the ratio, the ninth entry of the statistics. */
  const RatioName: string := "compression_ratio"

  /** The keys of the statistics in the order they are printed. */
  const StatNames: seq<string> := MmStat.FieldNames + [RatioName]

  /** How many statistics the report prints. */
  const StatCount: nat := 9

  // ---------------------------------------------------------------------
  // Values and lines.
  // ---------------------------------------------------------------------

  /** Lines 69-72 for an integer statistic: through `size` above the limit,
      else `str(v)`. The two cases can be told apart by the space `size`
      puts before the unit, and a raw value reads back as itself. */
  function ValueText(v: int, fixed2: real -> string): (t: string)
    ensures ' ' in t <==> v > RawLimit
    ensures v <= RawLimit ==> IsIntLiteral(t) && ParseInt(t) == Some(v)
    ensures v > RawLimit ==> exists i: nat, x: real :: (1 <= i && IsUnitIndex(v as real, i)
      && Mul1024(x, i) == v as real && t == TrimFixed(fixed2(x)) + " " + Suffixes[i])
  {
    if v > RawLimit then
      SizeHasSpace(v as real, fixed2);
      SizeAboveKilo(v as real, fixed2);
      Size(v as real, fixed2)
    else
      ShowIntHasNoSpace(v);
      ParseShowInt(v);
      ShowInt(v)
  }

  /** Lines 69-72 for the ratio, a float: through `size` above the limit,
      else Python's `str` of the float, here the parameter `showFloat`. */
  function RatioText(ratio: real, fixed2: real -> string, showFloat: real -> string): (t: string)
    ensures ratio > RawLimit as real ==> ' ' in t
    ensures ratio > RawLimit as real ==> exists i: nat, x: real :: (1 <= i && IsUnitIndex(ratio, i)
      && Mul1024(x, i) == ratio && t == TrimFixed(fixed2(x)) + " " + Suffixes[i])
    ensures ratio <= RawLimit as real ==> t == showFloat(ratio)
  {
    if ratio > RawLimit as real then
      SizeHasSpace(ratio, fixed2);
      SizeAboveKilo(ratio, fixed2);
      Size(ratio, fixed2)
    else showFloat(ratio)
  }

  /** Line 73, `f"{k:18}{h}"`: the key padded to the name column, then the
      value. */
  function StatLine(name: string, text: string): (line: string)
    ensures |line| == PaddedLength(|name|, NameWidth) + |text|
    ensures line[..|name|] == name
    ensures forall i :: |name| <= i < NameWidth ==> line[i] == ' '
    ensures line[|line| - |text|..] == text
  {
    var p := LJust(name, NameWidth);
    assert (p + text)[..|name|] == p[..|name|];
    assert (p + text)[|p|..] == text;
    p + text
  }

  /** A name fits its column and can be read back from it. */
  predicate FitsColumn(name: string) {
    |name| < NameWidth && (name == [] || name[|name| - 1] != ' ')
  }

  /** Lines 68-73: one line per statistic, the eight columns of `mm_stat`
      in file order, then the ratio. Each line holds its key in the name
      column and the value's text after it. */
  function StatLines(s: MmStat.MemStats, fixed2: real -> string, showFloat: real -> string): (lines: seq<string>)
    requires s.comprDataSize != 0
    ensures |lines| == StatCount
    ensures forall k :: 0 <= k < MmStat.ColumnCount ==>
      ReadsAs(lines[k], StatNames[k], ValueText(s.Fields()[k], fixed2))
    ensures ReadsAs(lines[MmStat.ColumnCount], RatioName,
      RatioText(MmStat.CompressionRatio(s), fixed2, showFloat))
  {
    var fs := s.Fields();
    var lines := seq(MmStat.ColumnCount, k requires 0 <= k < MmStat.ColumnCount =>
      StatLine(MmStat.FieldNames[k], ValueText(fs[k], fixed2)))
      + [StatLine(RatioName, RatioText(MmStat.CompressionRatio(s), fixed2, showFloat))];
    assert forall k :: 0 <= k < MmStat.ColumnCount ==>
      ReadsAs(lines[k], StatNames[k], ValueText(fs[k], fixed2)) by {
      forall k | 0 <= k < MmStat.ColumnCount
        ensures ReadsAs(lines[k], StatNames[k], ValueText(fs[k], fixed2))
      {
        StatNamesFit(k);
        ReadStatLine(StatNames[k], ValueText(fs[k], fixed2));
      }
    }
    StatNamesFit(MmStat.ColumnCount);
    ReadStatLine(RatioName, RatioText(MmStat.CompressionRatio(s), fixed2, showFloat));
    lines
  }

  /** A line that, cut at the name column, gives back `name` (padding
      stripped) and `text`. */
  predicate ReadsAs(line: string, name: string, text: string) {
    && |line| >= NameWidth
    && RStrip(line[..NameWidth], ' ') == name
    && line[NameWidth..] == text
  }

  /** Line 83 for one device: the name padded to the name column, the used
      space through `size` padded to its column, then the size through
      `size` in brackets. */
  function SwapLine(e: Swaps.SwapEntry, fixed2: real -> string): (line: string)
    ensures InColumns(line, e.name, Size(e.used as real, fixed2), Size(e.size as real, fixed2))
  {
    var used, size := Size(e.used as real, fixed2), Size(e.size as real, fixed2);
    SwapLayout(e.name, used, size);
    SwapColumns(e.name, used, size)
  }

  /** `line` holds `name` from column 0, `used` from the end of the name
      column, and `size` in brackets after the used column. */
  predicate InColumns(line: string, name: string, used: string, size: string) {
    var u := PaddedLength(|name|, NameWidth);
    && |line| == u + PaddedLength(|used|, UsedWidth) + |size| + 3
    && line[..|name|] == name
    && line[u..u + |used|] == used
    && line[u + PaddedLength(|used|, UsedWidth)..] == " [" + size + "]"
  }

  /** The columns of `SwapColumns` are where `InColumns` says. */
  lemma SwapLayout(name: string, used: string, size: string)
    ensures InColumns(SwapColumns(name, used, size), name, used, size)
  {
  }

  /** `f"{name:18}{used:8} [{size}]"`: the name, padded with spaces to 18
      characters; the used text, padded to 8; then the size in brackets.
      A text as wide as its column or wider is not cut and gets no
      padding. */
  function SwapColumns(name: string, used: string, size: string): (line: string)
    ensures var u := PaddedLength(|name|, NameWidth);
      var v := u + PaddedLength(|used|, UsedWidth);
      && |line| == v + |size| + 3
      && line[..|name|] == name
      && (forall i :: |name| <= i < u ==> line[i] == ' ')
      && line[u..u + |used|] == used
      && (forall i :: u + |used| <= i < v ==> line[i] == ' ')
      && line[v..] == " [" + size + "]"
  {
    var p, q, r := LJust(name, NameWidth), LJust(used, UsedWidth), " [" + size + "]";
    var line := p + q + r;
    assert line[..|p|] == p && line[|p|..|p| + |q|] == q && line[|p| + |q|..] == r;
    assert line[..|name|] == p[..|name|];
    assert line[|p|..|p| + |used|] == q[..|used|];
    line
  }

  function SwapLines(es: seq<Swaps.SwapEntry>, fixed2: real -> string): (lines: seq<string>)
    ensures |lines| == |es|
    ensures forall k :: 0 <= k < |es| ==> lines[k] == SwapLine(es[k], fixed2)
  {
    Map(es, e => SwapLine(e, fixed2))
  }

  /** `f` applied to each element, in order. */
  function Map<A, B>(xs: seq<A>, f: A -> B): (ys: seq<B>)
    ensures |ys| == |xs|
    ensures forall k :: 0 <= k < |xs| ==> ys[k] == f(xs[k])
  {
    if xs == [] then [] else [f(xs[0])] + Map(xs[1..], f)
  }

  /** Lines 68-83: the statistics, then `docs` or an empty line (lines
      75-78), then the devices in table order. */
  function TextReport(s: MmStat.MemStats, es: seq<Swaps.SwapEntry>, verbose: bool, docs: string,
                      fixed2: real -> string, showFloat: real -> string): (lines: seq<string>)
    requires s.comprDataSize != 0
    ensures |lines| == StatCount + 1 + |es|
    ensures forall k :: 0 <= k < StatCount ==> lines[k] == StatLines(s, fixed2, showFloat)[k]
    ensures lines[StatCount] == if verbose then docs else ""
  {
    Assemble(StatLines(s, fixed2, showFloat), if verbose then docs else "", SwapLines(es, fixed2))
  }

  /** Lines, then one separator line, then more lines. */
  function Assemble(head: seq<string>, sep: string, tail: seq<string>): (lines: seq<string>)
    ensures |lines| == |head| + 1 + |tail|
    ensures forall k :: 0 <= k < |head| ==> lines[k] == head[k]
    ensures lines[|head|] == sep
    ensures forall k :: |head| < k < |lines| ==> lines[k] == tail[k - |head| - 1]
  {
    head + [sep] + tail
  }

  // ---------------------------------------------------------------------
  // The program.
  // ---------------------------------------------------------------------

  /** What the program prints when it succeeds. */
  datatype Output =
    | JsonStats(stats: MmStat.MemStats)
    | TextLines(lines: seq<string>)

  /** The exception that ends the program, from whichever file is read
      first. */
  datatype RunError =
    | StatFailure(statError: MmStat.StatError)
    | SwapFailure(swapError: Swaps.SwapError)

  /** `main` on the contents of `mm_stat` and `/proc/swaps`. Both files are
      read before the output mode is looked at, so a malformed swap table
      fails the JSON mode too. */
  function Run(mmStat: string, procSwaps: string, json: bool, verbose: bool, docs: string,
               fixed2: real -> string, showFloat: real -> string): (r: Result<Output, RunError>)
    ensures r.Success? <==> MmStat.Parse(mmStat).Success? && Swaps.Parse(procSwaps).Success?
    ensures MmStat.Parse(mmStat).Failure? ==> r == Failure(StatFailure(MmStat.Parse(mmStat).error))
    ensures MmStat.Parse(mmStat).Success? && Swaps.Parse(procSwaps).Failure? ==>
      r == Failure(SwapFailure(Swaps.Parse(procSwaps).error))
    ensures r.Success? ==> (json <==> r.value.JsonStats?)
    ensures r.Success? && json ==> r.value.stats == MmStat.Parse(mmStat).value
    ensures r.Success? && !json ==>
      r.value.lines == TextReport(MmStat.Parse(mmStat).value, Swaps.Parse(procSwaps).value,
                                  verbose, docs, fixed2, showFloat)
    ensures r.Success? && !json ==>
      |r.value.lines| == StatCount + 1 + |Swaps.Parse(procSwaps).value|
  {
    match MmStat.Parse(mmStat)
    case Failure(e) => Failure(StatFailure(e))
    case Success(s) =>
      match Swaps.Parse(procSwaps)
      case Failure(e) => Failure(SwapFailure(e))
      case Success(es) =>
        assert s.comprDataSize != 0 by { MmStatNonZero(mmStat); }
        if json then Success(JsonStats(s))
        else Success(TextLines(TextReport(s, es, verbose, docs, fixed2, showFloat)))
  }

  // ---------------------------------------------------------------------
  // Properties.
  // ---------------------------------------------------------------------

  /** `size` always puts a space between the number and the unit. */
  lemma SizeHasSpace(x: real, fixed2: real -> string)
    ensures ' ' in Size(x, fixed2)
  {
    var r := Size(x, fixed2);
    var i: nat, v: real :| IsUnitIndex(x, i) && Mul1024(v, i) == x
      && r == TrimFixed(fixed2(v)) + " " + Suffixes[i];
    assert r[|TrimFixed(fixed2(v))|] == ' ';
  }

  /** Above the limit `size` never prints bytes: the unit is KB or larger. */
  lemma SizeAboveKilo(x: real, fixed2: real -> string)
    requires x > RawLimit as real
    ensures exists i: nat, v: real :: (1 <= i && IsUnitIndex(x, i)
      && Mul1024(v, i) == x && Size(x, fixed2) == TrimFixed(fixed2(v)) + " " + Suffixes[i])
  {
    var r := Size(x, fixed2);
    var i: nat, v: real :| IsUnitIndex(x, i) && Mul1024(v, i) == x
      && r == TrimFixed(fixed2(v)) + " " + Suffixes[i];
    assert Pow1024(1) == 1024.0;
    assert LastUnit == 5;
    assert 1 <= i;
  }

  /** `str` of an integer is a single token: it has no space. */
  lemma ShowIntHasNoSpace(n: int)
    ensures ' ' !in ShowInt(n)
  {
    var t := ShowInt(n);
    assert forall i :: 0 <= i < |t| ==> t[i] != ' ';
  }

  /** A parsed `mm_stat` never has a zero compressed size. */
  lemma MmStatNonZero(text: string)
    requires MmStat.Parse(text).Success?
    ensures MmStat.Parse(text).value.comprDataSize != 0
  {
  }

  /** Every key the report prints fits the name column. */
  lemma StatNamesFit(k: nat)
    requires k < StatCount
    ensures |StatNames| == StatCount
    ensures FitsColumn(StatNames[k])
  {
  }

  /** A statistic line cut at the name column gives back its key and its
      value text. */
  lemma ReadStatLine(name: string, text: string)
    requires FitsColumn(name)
    ensures ReadsAs(StatLine(name, text), name, text)
  {
    var p := LJust(name, NameWidth);
    var line := p + text;
    assert line[..NameWidth] == p;
    assert line[NameWidth..] == text;
    LJustRoundTrip(name, NameWidth);
  }

  /** A device line starts with the device's name and, when the name fits
      its column, gives it back from that column, followed by the used
      space; it ends with the size in brackets. */
  lemma ReadSwapLine(e: Swaps.SwapEntry, fixed2: real -> string)
    ensures var line, used, size := SwapLine(e, fixed2), Size(e.used as real, fixed2), Size(e.size as real, fixed2);
      var v := NameWidth + PaddedLength(|used|, UsedWidth);
      && |line| > |size| + 2
      && line[..|e.name|] == e.name
      && line[|line| - |size| - 3..] == " [" + size + "]"
      && (FitsColumn(e.name) ==> RStrip(line[..NameWidth], ' ') == e.name)
      && (FitsColumn(e.name) ==> line[NameWidth..NameWidth + |used|] == used)
      && (FitsColumn(e.name) ==> forall i :: NameWidth + |used| <= i < v ==> line[i] == ' ')
      && (FitsColumn(e.name) ==> line[v..] == " [" + size + "]")
  {
    ReadSwapColumns(e.name, Size(e.used as real, fixed2), Size(e.size as real, fixed2));
  }

  /** The columns of a device line, read back: with a name that fits its
      column, the name column gives the name back, the used text follows
      at column 18, padded with spaces to 8 characters, and the bracketed
      size starts right after the used column. */
  lemma ReadSwapColumns(name: string, used: string, size: string)
    ensures var line, v := SwapColumns(name, used, size), NameWidth + PaddedLength(|used|, UsedWidth);
      && |line| > |size| + 2
      && line[..|name|] == name
      && line[|line| - |size| - 3..] == " [" + size + "]"
      && (FitsColumn(name) ==> RStrip(line[..NameWidth], ' ') == name)
      && (FitsColumn(name) ==> line[NameWidth..NameWidth + |used|] == used)
      && (FitsColumn(name) ==> forall i :: NameWidth + |used| <= i < v ==> line[i] == ' ')
      && (FitsColumn(name) ==> line[v..] == " [" + size + "]")
  {
    var line := SwapColumns(name, used, size);
    var p := LJust(name, NameWidth);
    assert line[|line| - |size| - 3..] == " [" + size + "]";
    if FitsColumn(name) {
      LJustRoundTrip(name, NameWidth);
      assert line[..NameWidth] == p by {
        assert |p| == NameWidth;
        assert forall i :: 0 <= i < NameWidth ==> line[i] == p[i] by {
          assert forall i :: 0 <= i < |name| ==> line[..|name|][i] == line[i];
        }
      }
    }
  }

  /** A report's statistic lines give back the keys in order; the raw
      values among them read back as the integers they print. */
  lemma ReportReadsBack(s: MmStat.MemStats, es: seq<Swaps.SwapEntry>, verbose: bool, docs: string,
                        fixed2: real -> string, showFloat: real -> string, k: nat)
    requires s.comprDataSize != 0
    requires k < MmStat.ColumnCount
    ensures var lines := TextReport(s, es, verbose, docs, fixed2, showFloat);
      && |lines[k]| >= NameWidth
      && RStrip(lines[k][..NameWidth], ' ') == StatNames[k]
      && (s.Fields()[k] <= RawLimit ==> ParseInt(lines[k][NameWidth..]) == Some(s.Fields()[k]))
      && (s.Fields()[k] > RawLimit <==> ' ' in lines[k][NameWidth..])
  {
    var lines := TextReport(s, es, verbose, docs, fixed2, showFloat);
    assert lines[k] == StatLines(s, fixed2, showFloat)[k];
  }

  /** A device's line sits after the nine statistics and the separator. */
  lemma ReportSwapLine(s: MmStat.MemStats, es: seq<Swaps.SwapEntry>, verbose: bool, docs: string,
                       fixed2: real -> string, showFloat: real -> string, k: nat)
    requires s.comprDataSize != 0
    requires k < |es|
    ensures TextReport(s, es, verbose, docs, fixed2, showFloat)[StatCount + 1 + k]
      == SwapLine(es[k], fixed2)
  {
    var head := StatLines(s, fixed2, showFloat);
    var tail := SwapLines(es, fixed2);
    AssembleTail(head, if verbose then docs else "", tail, k);
  }

  /** The `k`-th line after the separator is the `k`-th of the tail. */
  lemma AssembleTail(head: seq<string>, sep: string, tail: seq<string>, k: nat)
    requires k < |tail|
    ensures Assemble(head, sep, tail)[|head| + 1 + k] == tail[k]
  {
  }

  /** With no swap device the report is the nine statistics and the
      separator. */
  lemma NoDevicesReport(s: MmStat.MemStats, text: string, verbose: bool, docs: string,
                        fixed2: real -> string, showFloat: real -> string)
    requires s.comprDataSize != 0
    requires '\n' !in Strip(text)
    ensures Swaps.Parse(text) == Success([])
    ensures |TextReport(s, [], verbose, docs, fixed2, showFloat)| == StatCount + 1
  {
    Swaps.HeaderOnly(text);
  }

  /** End to end: files written for `s` and `rows`, with single spaces
      in `mm_stat` and single tabs in the swap rows, give, in JSON mode,
      `s` itself, and in text mode the report of `s` and of the rows'
      devices in table order. */
  lemma RunOnFormatted(s: MmStat.MemStats, header: string, rows: seq<Swaps.SwapRow>,
                       verbose: bool, docs: string, fixed2: real -> string, showFloat: real -> string)
    requires s.comprDataSize != 0
    requires Swaps.FramedLine(header)
    requires forall k :: 0 <= k < |rows| ==> Swaps.ValidRow(rows[k])
    ensures var mm, sw := MmStat.Format(s), Swaps.FormatTable(header, rows);
      && Run(mm, sw, true, verbose, docs, fixed2, showFloat) == Success(JsonStats(s))
      && Run(mm, sw, false, verbose, docs, fixed2, showFloat)
           == Success(TextLines(TextReport(s, Swaps.EntriesOf(rows), verbose, docs, fixed2, showFloat)))
  {
    MmStat.ParseFormat(s);
    Swaps.ParseFormatTable(header, rows);
  }

  /** A swap table the program cannot read stops it in JSON mode as well,
      although JSON mode prints nothing about swap devices. */
  lemma JsonNeedsSwaps(mmStat: string, procSwaps: string, verbose: bool, docs: string,
                       fixed2: real -> string, showFloat: real -> string)
    requires MmStat.Parse(mmStat).Success?
    requires Swaps.Parse(procSwaps).Failure?
    ensures Run(mmStat, procSwaps, true, verbose, docs, fixed2, showFloat).Failure?
    ensures Run(mmStat, procSwaps, true, verbose, docs, fixed2, showFloat).error.SwapFailure?
  {
  }

  /** The limit is inclusive on the raw side: 10000 prints as itself. */
  lemma RawAtLimit(fixed2: real -> string)
    ensures ValueText(10000, fixed2) == "10000"
  {
    assert ShowNat(10000) == "10000" by {
      assert ShowNat(1) == "1";
      assert ShowNat(10) == "10";
      assert ShowNat(100) == "100";
      assert ShowNat(1000) == "1000";
    }
  }

  /** Just above the limit the value goes through `size`: 10001 prints as
      `9.77 KB`. */
  lemma SizedAboveLimit(fixed2: real -> string)
    requires fixed2(10001.0 / 1024.0) == "9.77"
    ensures ValueText(10001, fixed2) == "9.77 KB"
  {
    UnitAboveLimit();
    TrimTwoDecimals();
    SizeFrom(10001.0, fixed2, Scaled(10001.0 / 1024.0, 1), "9.77");
    assert ValueText(10001, fixed2) == Size(10001 as real, fixed2);
  }

  /** 10001 bytes are a little under 10 KB. */
  lemma UnitAboveLimit()
    ensures UnitOf(10001.0) == Scaled(10001.0 / 1024.0, 1)
  {
    assert Scale(10001.0, 0) == Scale(10001.0 / 1024.0, 1) == Scaled(10001.0 / 1024.0, 1);
  }

  /** A rendering with a non-zero last decimal is kept whole. */
  lemma TrimTwoDecimals()
    ensures TrimFixed("9.77") == "9.77"
  {
    assert IsFixed2("9.77");
  }
}

=== FILE: swaps.dfy ===
/** The `/proc/swaps` table (lines 56-62): a header line, then one line per
    active swap device with its name in column 0 and its size and usage, in
    KiB, in columns 2 and 3. */
module Swaps {
  import opened Wrappers
  import opened Text
  import opened Numbers

  /** One swap device as the program keeps it, sizes in bytes. */
  datatype SwapEntry = SwapEntry(name: string, size: int, used: int)

  /** Why a data line fails: Python's `IndexError` for a missing column and
      `ValueError` for a column that is not an integer. `line` counts data
      lines from 0, after the header. */
  datatype SwapError =
    | MissingColumn(line: nat, column: nat)
    | NotANumber(line: nat, column: nat, token: string)
  {
    function Line(): nat {
      match this
      case MissingColumn(l, _) => l
      case NotANumber(l, _, _) => l
    }
  }

  /** The table's sizes are in units of 1024 bytes. */
  const BlockSize: int := 1024

  /** The columns of a data line the program reads. */
  const NameColumn: nat := 0
  const SizeColumn: nat := 2
  const UsedColumn: nat := 3

  /** A data line's tokens hold what the program reads from them. */
  predicate WellFormedRow(ts: seq<string>) {
    |ts| > UsedColumn && ParseInt(ts[SizeColumn]).Some? && ParseInt(ts[UsedColumn]).Some?
  }

  /** `e` is the error Python meets first when it evaluates `s[0]`, then
      `int(s[2])`, then `int(s[3])` on the tokens `ts` of a data line. */
  predicate IsFirstColumnError(ts: seq<string>, e: SwapError) {
    match e
    case MissingColumn(_, c) =>
      || (c == NameColumn && |ts| <= NameColumn)
      || (c == SizeColumn && NameColumn < |ts| <= SizeColumn)
      || (c == UsedColumn && |ts| == UsedColumn && ParseInt(ts[SizeColumn]).Some?)
    case NotANumber(_, c, t) =>
      || (c == SizeColumn && |ts| > SizeColumn && t == ts[SizeColumn] && ParseInt(t).None?)
      || (c == UsedColumn && |ts| > UsedColumn && ParseInt(ts[SizeColumn]).Some?
            && t == ts[UsedColumn] && ParseInt(t).None?)
  }

  /** Lines 59-61 for data line `j`: split the line, then read the name,
      the size and the usage, in that order, failing at the first column
      that is missing or not an integer. */
  function ParseLine(line: string, j: nat): (r: Result<SwapEntry, SwapError>)
    ensures var ts := Words(line);
      && (r.Success? <==> WellFormedRow(ts))
      && (r.Success? ==>
            && r.value.name == ts[NameColumn]
            && r.value.size == BlockSize * ParseInt(ts[SizeColumn]).value
            && r.value.used == BlockSize * ParseInt(ts[UsedColumn]).value)
      && (r.Failure? ==> r.error.Line() == j && IsFirstColumnError(ts, r.error))
  {
    var ts := Words(line);
    if |ts| <= NameColumn then Failure(MissingColumn(j, NameColumn))
    else if |ts| <= SizeColumn then Failure(MissingColumn(j, SizeColumn))
    else match ParseInt(ts[SizeColumn])
      case None => Failure(NotANumber(j, SizeColumn, ts[SizeColumn]))
      case Some(size) =>
        if |ts| <= UsedColumn then Failure(MissingColumn(j, UsedColumn))
        else match ParseInt(ts[UsedColumn])
          case None => Failure(NotANumber(j, UsedColumn, ts[UsedColumn]))
          case Some(used) => Success(SwapEntry(ts[NameColumn], size * BlockSize, used * BlockSize))
  }

  /** Each data line read on its own, data line `k` numbered `j + k`. */
  function ParseEach(lines: seq<string>, j: nat): (rs: seq<Result<SwapEntry, SwapError>>)
    ensures |rs| == |lines|
    ensures forall k :: 0 <= k < |lines| ==> rs[k] == ParseLine(lines[k], j + k)
  {
    MapNumbered(lines, j, ParseLine)
  }

  /** `f` applied to each element and its number, numbers counting from `j`. */
  function MapNumbered<A, B>(xs: seq<A>, j: nat, f: (A, nat) -> B): (ys: seq<B>)
    ensures |ys| == |xs|
    ensures forall k :: 0 <= k < |xs| ==> ys[k] == f(xs[k], j + k)
    decreases |xs|
  {
    if xs == [] then [] else [f(xs[0], j)] + MapNumbered(xs[1..], j + 1, f)
  }

  /** `rs[k]` is the first failure of `rs`. */
  predicate IsFirstFailure(rs: seq<Result<SwapEntry, SwapError>>, k: nat) {
    k < |rs| && rs[k].Failure? && forall m :: 0 <= m < k ==> rs[m].Success?
  }

  /** The loop's effect on the results of its lines: the values in order when
      every line succeeds, otherwise the first failure, which ends the run. */
  function Collect(rs: seq<Result<SwapEntry, SwapError>>): (r: Result<seq<SwapEntry>, SwapError>)
    ensures r.Success? <==> forall k :: 0 <= k < |rs| ==> rs[k].Success?
    ensures r.Success? ==> |r.value| == |rs| && forall k :: 0 <= k < |rs| ==> rs[k] == Success(r.value[k])
    ensures r.Failure? ==> exists k: nat :: IsFirstFailure(rs, k) && rs[k] == Failure(r.error)
  {
    if rs == [] then Success([])
    else match rs[0]
      case Failure(e) =>
        assert IsFirstFailure(rs, 0);
        Failure(e)
      case Success(v) =>
        match Collect(rs[1..])
        case Failure(e) =>
          var k: nat :| IsFirstFailure(rs[1..], k) && rs[1..][k] == Failure(e);
          assert IsFirstFailure(rs, k + 1);
          Failure(e)
        case Success(vs) => Success([v] + vs)
  }

  /** The loop of lines 58-62 over the data lines, numbered from `j`: one
      entry per line in file order, or else the error of the first line that
      fails, with every line before it read successfully. */
  function ParseLines(lines: seq<string>, j: nat): (r: Result<seq<SwapEntry>, SwapError>)
    ensures r.Success? <==> forall k :: 0 <= k < |lines| ==> ParseLine(lines[k], j + k).Success?
    ensures r.Success? ==> (|r.value| == |lines|
      && forall k :: 0 <= k < |lines| ==> ParseLine(lines[k], j + k) == Success(r.value[k]))
    ensures r.Failure? ==> exists k :: (0 <= k < |lines|
      && ParseLine(lines[k], j + k) == Failure(r.error)
      && forall m :: 0 <= m < k ==> ParseLine(lines[m], j + m).Success?)
  {
    EachSucceeds(lines, j);
    EachValue(lines, j);
    FirstFailingLine(lines, j);
    Collect(ParseEach(lines, j))
  }

  lemma EachSucceeds(lines: seq<string>, j: nat)
    ensures Collect(ParseEach(lines, j)).Success? <==>
      forall k :: 0 <= k < |lines| ==> ParseLine(lines[k], j + k).Success?
  {
    var rs := ParseEach(lines, j);
    assert forall k :: 0 <= k < |lines| ==> rs[k] == ParseLine(lines[k], j + k);
  }

  lemma EachValue(lines: seq<string>, j: nat)
    ensures var r := Collect(ParseEach(lines, j));
      r.Success? ==> (|r.value| == |lines|
        && forall k :: 0 <= k < |lines| ==> ParseLine(lines[k], j + k) == Success(r.value[k]))
  {
    var rs := ParseEach(lines, j);
    assert forall k :: 0 <= k < |lines| ==> rs[k] == ParseLine(lines[k], j + k);
  }

  lemma FirstFailingLine(lines: seq<string>, j: nat)
    ensures var r := Collect(ParseEach(lines, j));
      r.Failure? ==> exists k :: (0 <= k < |lines|
        && ParseLine(lines[k], j + k) == Failure(r.error)
        && forall m :: 0 <= m < k ==> ParseLine(lines[m], j + m).Success?)
  {
    var rs := ParseEach(lines, j);
    var r := Collect(rs);
    if r.Failure? {
      var k: nat :| IsFirstFailure(rs, k) && rs[k] == Failure(r.error);
      assert ParseLine(lines[k], j + k) == Failure(r.error);
    }
  }

  /** The lines after the header: `f.read().strip().split("\n")[1:]`. */
  function DataLines(text: string): (lines: seq<string>)
    ensures forall k :: 0 <= k < |lines| ==> '\n' !in lines[k]
  {
    Split(Strip(text), '\n')[1..]
  }

  /** Nothing of the stripped text is lost: a first line, then the data
      lines, joined by newlines, make it up again. */
  lemma DataLinesRebuild(text: string)
    ensures exists header :: '\n' !in header && Join([header] + DataLines(text), "\n") == Strip(text)
  {
    var parts := Split(Strip(text), '\n');
    assert [parts[0]] + parts[1..] == parts;
  }

  /** Lines 57-62. */
  function Parse(text: string): (r: Result<seq<SwapEntry>, SwapError>)
    ensures var lines := DataLines(text);
      && (r.Success? <==> forall k :: 0 <= k < |lines| ==> ParseLine(lines[k], k).Success?)
      && (r.Success? ==> (|r.value| == |lines|
            && forall k :: 0 <= k < |lines| ==> ParseLine(lines[k], k) == Success(r.value[k])))
  {
    ParseLines(DataLines(text), 0)
  }

  /** A table with no data line, empty or header only, has no swap
      devices; this is not an error. */
  lemma HeaderOnly(text: string)
    requires '\n' !in Strip(text)
    ensures Parse(text) == Success([])
  {
    SplitJoin([Strip(text)], '\n');
  }

  /** An empty file has no swap devices. */
  lemma EmptyTable()
    ensures Parse("") == Success([])
  {
    assert Strip("") == "";
    HeaderOnly("");
  }

  /** The kernel's header line alone, its columns separated by runs of
      tabs, has no swap devices. */
  lemma HeaderOnlyExample(hdr: string)
    requires hdr == "Filename\t\t\t\tType\t\tSize\t\tUsed\t\tPriority"
    ensures Parse(hdr + "\n") == Success([])
  {
    assert FramedLine(hdr);
    ParseFormatTable(hdr, []);
    assert [hdr] + FormatRows([]) == [hdr];
  }

  // ---------------------------------------------------------------------
  // Tables written from rows, and reading them back.
  // ---------------------------------------------------------------------

  /** One device as `/proc/swaps` lists it: name, type, size and used in
      KiB, and priority. */
  datatype SwapRow = SwapRow(name: string, kind: string, sizeKiB: nat, usedKiB: nat, priority: int)

  predicate ValidRow(row: SwapRow) {
    IsWord(row.name) && IsWord(row.kind)
  }

  /** A row's tokens, in column order. */
  function RowTokens(row: SwapRow): (ts: seq<string>)
    ensures ValidRow(row) ==> forall i :: 0 <= i < |ts| ==> IsWord(ts[i])
  {
    var size, used, priority := ShowInt(row.sizeKiB), ShowInt(row.usedKiB), ShowInt(row.priority);
    ShowIntIsWord(row.sizeKiB);
    ShowIntIsWord(row.usedKiB);
    ShowIntIsWord(row.priority);
    var ts := [row.name, row.kind, size, used, priority];
    assert ts[2] == size && ts[3] == used && ts[4] == priority;
    ts
  }

  /** A data line in its plainest form: the row's tokens separated by
      single tabs. `ParseSpacedRow` covers any other spacing. */
  function FormatRow(row: SwapRow): string {
    Join(RowTokens(row), "\t")
  }

  function FormatRows(rows: seq<SwapRow>): (lines: seq<string>)
    ensures |lines| == |rows|
    ensures forall k :: 0 <= k < |rows| ==> lines[k] == FormatRow(rows[k])
  {
    if rows == [] then [] else [FormatRow(rows[0])] + FormatRows(rows[1..])
  }

  /** The table: the header line, then one line per row, each ended by a
      newline. */
  function FormatTable(header: string, rows: seq<SwapRow>): string {
    Join([header] + FormatRows(rows), "\n") + "\n"
  }

  /** What the program keeps of a row. */
  function EntryOf(row: SwapRow): (e: SwapEntry) {
    SwapEntry(row.name, BlockSize * row.sizeKiB, BlockSize * row.usedKiB)
  }

  function EntriesOf(rows: seq<SwapRow>): (es: seq<SwapEntry>)
    ensures |es| == |rows|
    ensures forall k :: 0 <= k < |rows| ==> es[k] == EntryOf(rows[k])
  {
    if rows == [] then [] else [EntryOf(rows[0])] + EntriesOf(rows[1..])
  }

  /** A data line of the table reads back as the row's entry. */
  lemma ParseFormatRow(row: SwapRow, j: nat)
    requires ValidRow(row)
    ensures ParseLine(FormatRow(row), j) == Success(EntryOf(row))
  {
    WordsOfJoin(RowTokens(row), "\t");
    ParseRowWords(FormatRow(row), row, j);
  }

  /** A data line reads as the row's entry however its columns are
      spaced: whitespace before and after, and a run of its own in each of
      the four gaps. The kernel pads the name with spaces and separates the
      other columns with runs of tabs, so gaps differ in length. */
  lemma ParseSpacedRow(row: SwapRow, lead: string, seps: seq<string>, trail: string, j: nat)
    requires ValidRow(row)
    requires AllSpace(lead) && AllSpace(trail)
    requires |seps| == 4
    requires forall i :: 0 <= i < |seps| ==> seps[i] != [] && AllSpace(seps[i])
    ensures ParseLine(lead + JoinSeps(RowTokens(row), seps) + trail, j) == Success(EntryOf(row))
  {
    var line := lead + JoinSeps(RowTokens(row), seps) + trail;
    WordsOfLayout(line, RowTokens(row), lead, seps, trail);
    ParseRowWords(line, row, j);
  }

  /** A line reads as a row's entry whenever `split()` gives the row's
      tokens. */
  lemma ParseRowWords(line: string, row: SwapRow, j: nat)
    requires Words(line) == RowTokens(row)
    ensures ParseLine(line, j) == Success(EntryOf(row))
  {
    ParseShowInt(row.sizeKiB);
    ParseShowInt(row.usedKiB);
  }

  lemma FormatRowShape(row: SwapRow)
    requires ValidRow(row)
    ensures '\n' !in FormatRow(row)
    ensures FormatRow(row) != [] && !IsSpace(FormatRow(row)[0])
    ensures !IsSpace(FormatRow(row)[|FormatRow(row)| - 1])
  {
    var ts := RowTokens(row);
    forall i | 0 <= i < |ts|
      ensures '\n' !in ts[i]
    {
      assert IsSpace('\n');
      assert forall m :: 0 <= m < |ts[i]| ==> ts[i][m] != '\n';
    }
    NotInJoin(ts, "\t", '\n');
    JoinEnds(ts, "\t");
  }

  /** Reading a table of single-tab rows gives one entry per row, in
      order, with the sizes in bytes; the header is skipped. */
  lemma ParseFormatTable(header: string, rows: seq<SwapRow>)
    requires FramedLine(header)
    requires forall k :: 0 <= k < |rows| ==> ValidRow(rows[k])
    ensures Parse(FormatTable(header, rows)) == Success(EntriesOf(rows))
  {
    TableDataLines(header, rows);
    ParseFormatRows(rows);
  }

  /** The data lines of a formatted table are the formatted rows. */
  lemma TableDataLines(header: string, rows: seq<SwapRow>)
    requires FramedLine(header)
    requires forall k :: 0 <= k < |rows| ==> ValidRow(rows[k])
    ensures DataLines(FormatTable(header, rows)) == FormatRows(rows)
  {
    TableLinesShape(header, rows);
    FramedDataLines(header, FormatRows(rows));
  }

  /** The data lines of a framed header and framed lines, each ended by a
      newline, are those lines. */
  lemma FramedDataLines(header: string, lines: seq<string>)
    requires FramedLine(header)
    requires forall k :: 0 <= k < |lines| ==> FramedLine(lines[k])
    ensures DataLines(Join([header] + lines, "\n") + "\n") == lines
  {
    var all := [header] + lines;
    PrependFramed(header, lines);
    BodyShape(all);
    SplitTable(all);
    DataLinesOfBody(Join(all, "\n"), all);
    assert all[1..] == lines;
  }

  /** A framed header followed by framed lines are all framed. */
  lemma PrependFramed(header: string, lines: seq<string>)
    requires FramedLine(header)
    requires forall k :: 0 <= k < |lines| ==> FramedLine(lines[k])
    ensures forall k :: 0 <= k < |[header] + lines| ==> FramedLine(([header] + lines)[k])
  {
  }

  /** The data lines of framed lines joined and ended by newlines are all
      but the first of them. */
  lemma DataLinesOfBody(body: string, all: seq<string>)
    requires body != [] && !IsSpace(body[0]) && !IsSpace(body[|body| - 1])
    requires Split(body, '\n') == all
    ensures DataLines(body + "\n") == all[1..]
  {
    StripTable(body);
  }

  /** A framed line of a table: not empty, no newline, no blank at either
      end. */
  predicate FramedLine(l: string) {
    l != [] && '\n' !in l && !IsSpace(l[0]) && !IsSpace(l[|l| - 1])
  }

  /** Every line of a formatted table is framed. */
  lemma TableLinesShape(header: string, rows: seq<SwapRow>)
    requires FramedLine(header)
    requires forall k :: 0 <= k < |rows| ==> ValidRow(rows[k])
    ensures forall k :: 0 <= k < |rows| ==> FramedLine(FormatRows(rows)[k])
  {
    var lines := FormatRows(rows);
    forall k | 0 <= k < |rows|
      ensures FramedLine(lines[k])
    {
      FormatRowShape(rows[k]);
    }
  }

  /** Stripping a table body followed by its final newline leaves the body. */
  lemma StripTable(body: string)
    requires body != [] && !IsSpace(body[0]) && !IsSpace(body[|body| - 1])
    ensures Strip(body + "\n") == body
  {
    assert IsSpace('\n');
    StripFramed("", body, "\n");
    assert "" + body + "\n" == body + "\n";
  }

  /** Splitting the joined framed lines at newlines gives them back. */
  lemma SplitTable(all: seq<string>)
    requires |all| >= 1
    requires forall k :: 0 <= k < |all| ==> FramedLine(all[k])
    ensures Split(Join(all, "\n"), '\n') == all
  {
    SplitJoin(all, '\n');
  }

  /** Formatted rows read back as their entries. */
  lemma ParseFormatRows(rows: seq<SwapRow>)
    requires forall k :: 0 <= k < |rows| ==> ValidRow(rows[k])
    ensures ParseLines(FormatRows(rows), 0) == Success(EntriesOf(rows))
  {
    var lines := FormatRows(rows);
    forall k | 0 <= k < |lines|
      ensures ParseLine(lines[k], 0 + k) == Success(EntryOf(rows[k]))
    {
      ParseFormatRow(rows[k], k);
    }
    ParseLinesAll(lines, 0, EntriesOf(rows));
  }

  /** Lines that each read as the matching entry read as those entries. */
  lemma ParseLinesAll(lines: seq<string>, j: nat, es: seq<SwapEntry>)
    requires |es| == |lines|
    requires forall k :: 0 <= k < |lines| ==> ParseLine(lines[k], j + k) == Success(es[k])
    ensures ParseLines(lines, j) == Success(es)
  {
    var rs := ParseEach(lines, j);
    CollectAll(rs, es);
  }

  lemma CollectAll(rs: seq<Result<SwapEntry, SwapError>>, es: seq<SwapEntry>)
    requires |es| == |rs|
    requires forall k :: 0 <= k < |rs| ==> rs[k] == Success(es[k])
    ensures Collect(rs) == Success(es)
  {
    var r := Collect(rs);
    assert r.value == es;
  }

  /** The joined table body starts with its first line's first character and
      ends with its last line's last character. */
  lemma BodyShape(all: seq<string>)
    requires |all| >= 1
    requires forall k :: 0 <= k < |all| ==> FramedLine(all[k])
    ensures var b := Join(all, "\n"); b != [] && !IsSpace(b[0]) && !IsSpace(b[|b| - 1])
  {
    JoinEnds(all, "\n");
  }
}

=== FILE: text.dfy ===
/** The handful of Python `str` operations the program relies on, over
    `seq<char>`: `split()`, `split(sep)`, `strip()`, `rstrip(chars)` and
    left-justification to a field width. */
module Text {

  /** Python's whitespace class (`str.isspace`), which `split()` and `strip()`
      with no argument use. */
  predicate IsSpace(c: char) {
    || ('\t' <= c <= '\r')
    || ('\U{1c}' <= c <= '\U{1f}')
    || c == ' '
    || c == '\U{85}'
    || c == '\U{a0}'
    || c == '\U{1680}'
    || ('\U{2000}' <= c <= '\U{200a}')
    || c == '\U{2028}'
    || c == '\U{2029}'
    || c == '\U{202f}'
    || c == '\U{205f}'
    || c == '\U{3000}'
  }

  /** A token of `split()`: non-empty and free of whitespace. */
  predicate IsWord(w: string) {
    |w| > 0 && forall i :: 0 <= i < |w| ==> !IsSpace(w[i])
  }

  predicate AllSpace(s: string) {
    forall i :: 0 <= i < |s| ==> IsSpace(s[i])
  }

  /** Number of leading characters of `s` that satisfy `p`. */
  function CountWhile(s: string, p: char -> bool): (k: nat)
    ensures k <= |s|
    ensures forall i :: 0 <= i < k ==> p(s[i])
    ensures k == |s| || !p(s[k])
  {
    if s != [] && p(s[0]) then 1 + CountWhile(s[1..], p) else 0
  }

  /** Number of trailing characters of `s` that satisfy `p`. */
  function CountLastWhile(s: string, p: char -> bool): (k: nat)
    ensures k <= |s|
    ensures forall i :: |s| - k <= i < |s| ==> p(s[i])
    ensures k == |s| || !p(s[|s| - k - 1])
  {
    if s != [] && p(s[|s| - 1]) then 1 + CountLastWhile(s[..|s| - 1], p) else 0
  }

  /** Python's `s.rstrip(c)` for a one-character argument: the longest prefix
      of `s` that does not end in `c` and after which only `c` follows. */
  function RStrip(s: string, c: char): (r: string)
    ensures |r| <= |s| && r == s[..|r|]
    ensures forall i :: |r| <= i < |s| ==> s[i] == c
    ensures r == [] || r[|r| - 1] != c
  {
    s[..|s| - CountLastWhile(s, ch => ch == c)]
  }

  /** The three facts `RStrip` ensures determine its result. */
  lemma RStripUnique(s: string, c: char, k: nat)
    requires k <= |s|
    requires forall i :: k <= i < |s| ==> s[i] == c
    requires k == 0 || s[k - 1] != c
    ensures RStrip(s, c) == s[..k]
  {
    var r := RStrip(s, c);
    assert forall i :: 0 <= i < |r| ==> r[i] == s[i];
  }

  /** Python's `s.strip()` with no argument: the middle of `s` between a
      leading and a trailing run of whitespace, neither end of it a space. */
  function Strip(s: string): (r: string)
    ensures exists a :: (0 <= a <= |s| - |r| && r == s[a..a + |r|]
      && AllSpace(s[..a]) && AllSpace(s[a + |r|..]))
    ensures r == [] || (!IsSpace(r[0]) && !IsSpace(r[|r| - 1]))
  {
    StripMiddle(s);
    s[StripStart(s)..StripEnd(s)]
  }

  /** The middle `Strip` returns has the shape its contract states. */
  lemma StripMiddle(s: string)
    ensures StripStart(s) <= StripEnd(s) <= |s|
    ensures var a, r := StripStart(s), s[StripStart(s)..StripEnd(s)];
      && 0 <= a <= |s| - |r| && r == s[a..a + |r|]
      && AllSpace(s[..a]) && AllSpace(s[a + |r|..])
      && (r == [] || (!IsSpace(r[0]) && !IsSpace(r[|r| - 1])))
  {
    var a, b := StripStart(s), StripEnd(s);
    StripBounds(s);
    var r := s[a..b];
    assert a + |r| == b;
    assert r == [] || (r[0] == s[a] && r[|r| - 1] == s[b - 1]);
  }

  function StripStart(s: string): nat {
    CountWhile(s, IsSpace)
  }

  function StripEnd(s: string): nat {
    var a := CountWhile(s, IsSpace);
    |s| - CountLastWhile(s[a..], IsSpace)
  }

  lemma StripBounds(s: string)
    ensures var a, b := StripStart(s), StripEnd(s);
      && a <= b <= |s|
      && AllSpace(s[..a]) && AllSpace(s[b..])
      && (a == b || (!IsSpace(s[a]) && !IsSpace(s[b - 1])))
  {
    StripStartBounds(s);
    StripEndBounds(s);
  }

  lemma StripStartBounds(s: string)
    ensures var a := StripStart(s);
      && a <= |s| && AllSpace(s[..a]) && (a == |s| || !IsSpace(s[a]))
  {
    var a := StripStart(s);
    assert forall i :: 0 <= i < a ==> s[..a][i] == s[i];
  }

  lemma StripEndBounds(s: string)
    ensures var a, b := StripStart(s), StripEnd(s);
      && a <= b <= |s| && AllSpace(s[b..]) && (a == b || !IsSpace(s[b - 1]))
  {
    var a, b := StripStart(s), StripEnd(s);
    var t := s[a..];
    var c := CountLastWhile(t, IsSpace);
    assert b == a + |t| - c;
    forall i | 0 <= i < |s| - b
      ensures IsSpace(s[b..][i])
    {
      assert s[b..][i] == t[|t| - c + i];
    }
    if a < b {
      assert s[b - 1] == t[|t| - c - 1];
    }
  }

  /** Length of the run of non-space characters that starts `s`. */
  function WordLength(s: string): (k: nat)
    ensures k <= |s|
    ensures forall i :: 0 <= i < k ==> !IsSpace(s[i])
    ensures k == |s| || IsSpace(s[k])
  {
    if s == [] || IsSpace(s[0]) then 0 else 1 + WordLength(s[1..])
  }

  /** Python's `s.split()` with no argument: the maximal runs of non-space
      characters, in order. */
  function Words(s: string): (ws: seq<string>)
    ensures forall i :: 0 <= i < |ws| ==> IsWord(ws[i])
    decreases |s|
  {
    if s == [] then []
    else if IsSpace(s[0]) then Words(s[1..])
    else
      var k := WordLength(s);
      [s[..k]] + Words(s[k..])
  }

  /** Python's `sep.join(parts)`. */
  function Join(parts: seq<string>, sep: string): string {
    if |parts| == 0 then ""
    else if |parts| == 1 then parts[0]
    else parts[0] + sep + Join(parts[1..], sep)
  }

  /** One step of a join that starts at position `k`. */
  lemma JoinStep(ts: seq<string>, k: nat, sep: string)
    requires k + 1 < |ts|
    ensures Join(ts[k..], sep) == ts[k] + sep + Join(ts[k + 1..], sep)
  {
    assert ts[k..][1..] == ts[k + 1..];
  }

  /** Index of the first occurrence of `c` in `s`. */
  function IndexOf(s: string, c: char): (i: nat)
    requires c in s
    ensures i < |s| && s[i] == c && c !in s[..i]
  {
    if s[0] == c then 0 else 1 + IndexOf(s[1..], c)
  }

  /** Python's `s.split(c)` for a one-character separator: always at least
      one piece, no piece contains `c`, and joining the pieces with `c` gives
      back `s`. */
  function Split(s: string, c: char): (parts: seq<string>)
    ensures |parts| >= 1
    ensures forall i :: 0 <= i < |parts| ==> c !in parts[i]
    ensures Join(parts, [c]) == s
    decreases |s|
  {
    if c !in s then [s]
    else
      var i := IndexOf(s, c);
      var rest := Split(s[i + 1..], c);
      assert s == s[..i] + [c] + s[i + 1..];
      [s[..i]] + rest
  }

  /** The length of a text of length `n` padded to width `w`. */
  function PaddedLength(n: nat, w: nat): nat {
    if n < w then w else n
  }

  /** Python's `s.ljust(w)`, which is what an `f"{s:w}"` field does to a
      string: `s` followed by spaces up to width `w`, or `s` unchanged when it
      is already that wide. */
  function LJust(s: string, w: nat): (r: string)
    ensures |r| == PaddedLength(|s|, w)
    ensures r[..|s|] == s
    ensures forall i :: |s| <= i < |r| ==> r[i] == ' '
  {
    if |s| < w then s + seq(w - |s|, _ => ' ') else s
  }

  // ---------------------------------------------------------------------
  // Properties of the operations above.
  // ---------------------------------------------------------------------

  /** Splitting a join undoes it, when no piece contains the separator. */
  lemma {:induction false} SplitJoin(parts: seq<string>, c: char)
    requires |parts| >= 1
    requires forall i :: 0 <= i < |parts| ==> c !in parts[i]
    ensures Split(Join(parts, [c]), c) == parts
    decreases |parts|
  {
    if |parts| > 1 {
      var p := parts[0];
      var rest := Join(parts[1..], [c]);
      var s := Join(parts, [c]);
      assert s == p + [c] + rest;
      assert s[|p|] == c;
      assert s[..|p|] == p;
      IndexOfUnique(s, c, |p|);
      var i := IndexOf(s, c);
      assert s[i + 1..] == rest;
      SplitJoin(parts[1..], c);
    }
  }

  /** `IndexOf` finds the first occurrence and no other. */
  lemma IndexOfUnique(s: string, c: char, j: nat)
    requires j < |s| && s[j] == c && c !in s[..j]
    ensures IndexOf(s, c) == j
  {
    var i := IndexOf(s, c);
    assert forall m :: 0 <= m < j ==> s[..j][m] == s[m];
    assert forall m :: 0 <= m < i ==> s[..i][m] == s[m];
  }

  /** A run of spaces contributes no word. */
  lemma {:induction false} WordsOfSpaces(s: string)
    requires AllSpace(s)
    ensures Words(s) == []
    decreases |s|
  {
    if s != [] {
      WordsOfSpaces(s[1..]);
    }
  }

  /** Leading spaces do not change the words. */
  lemma {:induction false} WordsSkipSpaces(sp: string, s: string)
    requires AllSpace(sp)
    ensures Words(sp + s) == Words(s)
    decreases |sp|
  {
    if sp != [] {
      assert IsSpace(sp[0]);
      assert (sp + s)[0] == sp[0];
      assert (sp + s)[1..] == sp[1..] + s;
      assert Words(sp + s) == Words(sp[1..] + s);
      WordsSkipSpaces(sp[1..], s);
    } else {
      assert sp + s == s;
    }
  }

  lemma {:induction false} WordLengthAppendSpaces(t: string, sp: string)
    requires AllSpace(sp)
    ensures WordLength(t + sp) == WordLength(t)
    decreases |t|
  {
    if t == [] {
      assert t + sp == sp;
    } else {
      assert (t + sp)[0] == t[0];
      assert (t + sp)[1..] == t[1..] + sp;
      WordLengthAppendSpaces(t[1..], sp);
    }
  }

  /** Trailing spaces do not change the words. */
  lemma {:induction false} WordsIgnoreTrailingSpaces(t: string, sp: string)
    requires AllSpace(sp)
    ensures Words(t + sp) == Words(t)
    decreases |t|
  {
    if t == [] {
      assert t + sp == sp;
      WordsOfSpaces(sp);
    } else if IsSpace(t[0]) {
      assert (t + sp)[1..] == t[1..] + sp;
      WordsIgnoreTrailingSpaces(t[1..], sp);
    } else {
      var k := WordLength(t);
      WordLengthAppendSpaces(t, sp);
      assert (t + sp)[..k] == t[..k];
      assert (t + sp)[k..] == t[k..] + sp;
      WordsIgnoreTrailingSpaces(t[k..], sp);
    }
  }

  /** `strip().split()` and `split()` give the same tokens. */
  lemma WordsOfStrip(s: string)
    ensures Words(Strip(s)) == Words(s)
  {
    var a, b := StripStart(s), StripEnd(s);
    StripBounds(s);
    assert s == s[..a] + (s[a..b] + s[b..]);
    WordsSkipSpaces(s[..a], s[a..b] + s[b..]);
    WordsIgnoreTrailingSpaces(s[a..b], s[b..]);
  }

  /** A word followed by anything that starts with a space has exactly the
      word's length as its leading run. */
  lemma {:induction false} WordLengthOfWord(w: string, rest: string)
    requires IsWord(w)
    requires rest == [] || IsSpace(rest[0])
    ensures WordLength(w + rest) == |w|
    decreases |w|
  {
    assert (w + rest)[0] == w[0];
    assert (w + rest)[1..] == w[1..] + rest;
    if |w| == 1 {
      assert w[1..] + rest == rest;
    } else {
      WordLengthOfWord(w[1..], rest);
    }
  }

  /** Splitting words joined by a run of whitespace gives the words back,
      whatever the run: one space, a column's padding, several tabs. */
  lemma {:induction false} WordsOfJoin(ws: seq<string>, sep: string)
    requires sep != [] && AllSpace(sep)
    requires forall i :: 0 <= i < |ws| ==> IsWord(ws[i])
    ensures Words(Join(ws, sep)) == ws
    decreases |ws|
  {
    if |ws| == 1 {
      var w := ws[0];
      WordLengthOfWord(w, "");
      assert w + "" == w;
      assert w[|w|..] == [];
    } else if |ws| > 1 {
      var w := ws[0];
      var rest := Join(ws[1..], sep);
      var s := Join(ws, sep);
      assert s == w + (sep + rest);
      assert (sep + rest)[0] == sep[0];
      WordLengthOfWord(w, sep + rest);
      assert s[..|w|] == w;
      assert s[|w|..] == sep + rest;
      WordsSkipSpaces(sep, rest);
      WordsOfJoin(ws[1..], sep);
    }
  }

  /** Words joined by a separator of their own between each pair: `ws[0]`,
      `seps[0]`, `ws[1]`, … */
  function JoinSeps(ws: seq<string>, seps: seq<string>): string
    requires ws == [] || |seps| + 1 == |ws|
  {
    if |ws| <= 1 then (if ws == [] then "" else ws[0])
    else ws[0] + seps[0] + JoinSeps(ws[1..], seps[1..])
  }

  /** `s` is the words `ws`, separated by non-empty runs of whitespace and
      surrounded by whitespace `lead` and `trail`. */
  predicate IsLayout(s: string, ws: seq<string>, lead: string, seps: seq<string>, trail: string) {
    && (ws == [] ==> seps == [])
    && (ws != [] ==> |seps| + 1 == |ws|)
    && AllSpace(lead) && AllSpace(trail)
    && (forall i :: 0 <= i < |seps| ==> seps[i] != [] && AllSpace(seps[i]))
    && s == lead + JoinSeps(ws, seps) + trail
  }

  /** Splitting words joined by runs of whitespace gives the words back,
      whatever each run is: the runs may differ from gap to gap. */
  lemma {:induction false} WordsOfJoinSeps(ws: seq<string>, seps: seq<string>)
    requires ws == [] || |seps| + 1 == |ws|
    requires forall i :: 0 <= i < |seps| ==> seps[i] != [] && AllSpace(seps[i])
    requires forall i :: 0 <= i < |ws| ==> IsWord(ws[i])
    ensures Words(JoinSeps(ws, seps)) == ws
    decreases |ws|
  {
    if |ws| == 1 {
      var w := ws[0];
      WordLengthOfWord(w, "");
      assert w + "" == w;
      assert w[|w|..] == [];
    } else if |ws| > 1 {
      var w, sep := ws[0], seps[0];
      var rest := JoinSeps(ws[1..], seps[1..]);
      var s := JoinSeps(ws, seps);
      assert s == w + (sep + rest);
      assert (sep + rest)[0] == sep[0];
      WordLengthOfWord(w, sep + rest);
      assert s[..|w|] == w;
      assert s[|w|..] == sep + rest;
      WordsSkipSpaces(sep, rest);
      WordsOfJoinSeps(ws[1..], seps[1..]);
    }
  }

  /** A per-gap join of words starts with the first word's first character. */
  lemma {:induction false} JoinSepsStart(ws: seq<string>, seps: seq<string>)
    requires |seps| + 1 == |ws|
    requires IsWord(ws[0])
    ensures JoinSeps(ws, seps) != [] && JoinSeps(ws, seps)[0] == ws[0][0]
  {
    if |ws| > 1 {
      assert JoinSeps(ws, seps) == ws[0] + (seps[0] + JoinSeps(ws[1..], seps[1..]));
    }
  }

  /** A layout of any text: its words, the whitespace before, between and
      after them. */
  lemma {:induction false} LayoutOf(s: string) returns (lead: string, seps: seq<string>, trail: string)
    ensures IsLayout(s, Words(s), lead, seps, trail)
    decreases |s|
  {
    if s == [] {
      lead, seps, trail := [], [], [];
    } else if IsSpace(s[0]) {
      var l, sp, t := LayoutOf(s[1..]);
      LayoutAfterSpace(s[0], s[1..], Words(s[1..]), l, sp, t);
      assert s == [s[0]] + s[1..];
      assert Words(s) == Words(s[1..]);
      lead, seps, trail := [s[0]] + l, sp, t;
    } else {
      var k := WordLength(s);
      var w, rest := s[..k], s[k..];
      assert s == w + rest;
      assert Words(s) == [w] + Words(rest);
      var l, sp, t := LayoutOf(rest);
      if Words(rest) == [] {
        LayoutLastWord(w, rest, l, t);
        lead, seps, trail := [], [], rest;
      } else {
        LayoutBeforeWords(w, Words(rest), rest, l, sp, t);
        lead, seps, trail := [], [l] + sp, t;
      }
    }
  }

  /** A space in front of a layout joins its leading whitespace. */
  lemma LayoutAfterSpace(c: char, rest: string, ws: seq<string>, l: string, sp: seq<string>, t: string)
    requires IsSpace(c)
    requires IsLayout(rest, ws, l, sp, t)
    ensures IsLayout([c] + rest, ws, [c] + l, sp, t)
  {
    var lead, j := [c] + l, JoinSeps(ws, sp);
    assert AllSpace(lead) by {
      forall i | 0 <= i < |lead|
        ensures IsSpace(lead[i])
      {
        if i > 0 { assert lead[i] == l[i - 1]; }
      }
    }
    assert [c] + rest == lead + j + t;
  }

  /** A word followed only by whitespace is a layout of that one word. */
  lemma LayoutLastWord(w: string, rest: string, l: string, t: string)
    requires IsWord(w)
    requires IsLayout(rest, [], l, [], t)
    ensures IsLayout(w + rest, [w], [], [], rest)
  {
    assert JoinSeps([w], []) == w;
    assert rest == l + t;
  }

  /** A word in front of a layout that starts with whitespace: that
      whitespace becomes the first gap. */
  lemma LayoutBeforeWords(w: string, ws: seq<string>, rest: string, l: string, sp: seq<string>, t: string)
    requires IsWord(w) && ws != [] && IsWord(ws[0])
    requires rest != [] && IsSpace(rest[0])
    requires IsLayout(rest, ws, l, sp, t)
    ensures IsLayout(w + rest, [w] + ws, [], [l] + sp, t)
  {
    JoinSepsStart(ws, sp);
    assert l != [];
    assert ([w] + ws)[1..] == ws && ([l] + sp)[1..] == sp;
    assert JoinSeps([w] + ws, [l] + sp) == w + l + JoinSeps(ws, sp);
    assert forall i :: 1 <= i < |[l] + sp| ==> ([l] + sp)[i] == sp[i - 1];
  }

  /** `split()` gives exactly the maximal runs of non-whitespace: `ws` are
      the words of `s` if and only if they are words and `s` is them laid out
      with whitespace before, between and after. */
  lemma WordsAreRuns(s: string, ws: seq<string>)
    ensures Words(s) == ws <==>
      && (forall i :: 0 <= i < |ws| ==> IsWord(ws[i]))
      && exists lead, seps, trail :: IsLayout(s, ws, lead, seps, trail)
  {
    if Words(s) == ws {
      var lead, seps, trail := LayoutOf(s);
    }
    if (forall i :: 0 <= i < |ws| ==> IsWord(ws[i]))
       && exists lead, seps, trail :: IsLayout(s, ws, lead, seps, trail) {
      var lead, seps, trail :| IsLayout(s, ws, lead, seps, trail);
      WordsOfLayout(s, ws, lead, seps, trail);
    }
  }

  /** The words of a layout of words are those words. */
  lemma WordsOfLayout(s: string, ws: seq<string>, lead: string, seps: seq<string>, trail: string)
    requires IsLayout(s, ws, lead, seps, trail)
    requires forall i :: 0 <= i < |ws| ==> IsWord(ws[i])
    ensures Words(s) == ws
  {
    WordsOfJoinSeps(ws, seps);
    WordsOfPadded(lead, JoinSeps(ws, seps), trail);
  }

  /** Whitespace around a text does not change its words. */
  lemma WordsOfPadded(lead: string, t: string, trail: string)
    requires AllSpace(lead) && AllSpace(trail)
    ensures Words(lead + t + trail) == Words(t)
  {
    assert lead + t + trail == lead + (t + trail);
    WordsSkipSpaces(lead, t + trail);
    WordsIgnoreTrailingSpaces(t, trail);
  }

  /** A join contains a character only if a piece or the separator does. */
  lemma {:induction false} NotInJoin(ws: seq<string>, sep: string, c: char)
    requires c !in sep
    requires forall i :: 0 <= i < |ws| ==> c !in ws[i]
    ensures c !in Join(ws, sep)
    decreases |ws|
  {
    if |ws| > 1 {
      NotInJoin(ws[1..], sep, c);
    }
  }

  /** A join of non-empty pieces starts with the first piece's first
      character and ends with the last piece's last character. */
  lemma {:induction false} JoinEnds(ws: seq<string>, sep: string)
    requires |ws| >= 1
    requires forall k :: 0 <= k < |ws| ==> ws[k] != []
    ensures var j := Join(ws, sep);
      && j != []
      && j[0] == ws[0][0]
      && j[|j| - 1] == ws[|ws| - 1][|ws[|ws| - 1]| - 1]
    decreases |ws|
  {
    if |ws| > 1 {
      JoinEnds(ws[1..], sep);
      var rest := Join(ws[1..], sep);
      assert Join(ws, sep) == ws[0] + (sep + rest);
    }
  }

  /** `strip()` of text framed by whitespace is the text in the frame. */
  lemma StripFramed(sp1: string, m: string, sp2: string)
    requires AllSpace(sp1) && AllSpace(sp2)
    requires m != [] && !IsSpace(m[0]) && !IsSpace(m[|m| - 1])
    ensures Strip(sp1 + m + sp2) == m
  {
    var s := sp1 + m + sp2;
    FramedStart(sp1, m, sp2);
    FramedEnd(sp1, m, sp2);
    assert s[|sp1|..|sp1| + |m|] == m;
  }

  lemma FramedStart(sp1: string, m: string, sp2: string)
    requires AllSpace(sp1)
    requires m != [] && !IsSpace(m[0])
    ensures StripStart(sp1 + m + sp2) == |sp1|
  {
    var s := sp1 + m + sp2;
    assert forall i :: 0 <= i < |sp1| ==> s[i] == sp1[i];
    assert s[|sp1|] == m[0];
  }

  lemma FramedEnd(sp1: string, m: string, sp2: string)
    requires AllSpace(sp2)
    requires m != [] && !IsSpace(m[|m| - 1])
    requires StripStart(sp1 + m + sp2) == |sp1|
    ensures StripEnd(sp1 + m + sp2) == |sp1| + |m|
  {
    var s := sp1 + m + sp2;
    var t := s[|sp1|..];
    assert t == m + sp2;
    assert forall i :: |m| <= i < |t| ==> t[i] == sp2[i - |m|];
    assert t[|m| - 1] == m[|m| - 1];
    assert CountLastWhile(t, IsSpace) == |sp2|;
  }

  /** Padding a column and stripping trailing spaces again gives back a text
      that does not itself end in a space. */
  lemma LJustRoundTrip(s: string, w: nat)
    requires s == [] || s[|s| - 1] != ' '
    ensures RStrip(LJust(s, w), ' ') == s
  {
    var r := LJust(s, w);
    RStripUnique(r, ' ', |s|);
  }
}

=== FILE: units.dfy ===
/** `size(nbytes)`: choose a binary unit by repeated division by 1024, render
    the scaled value with two decimals, drop trailing zeros and a trailing
    point, and append the unit suffix.

    The scaled value is a `real`: the exact quotient of the byte count by a
    power of 1024. Python compares the integer with 1024 exactly, then its
    first `/= 1024.0` rounds it to the nearest double, which changes it only
    above 2^53. The powers of 1024 up to PB are doubles, so that rounding
    never changes which of them a value reaches, and the unit index is the
    one Python computes. Dividing a double by 1024 is exact, so the value
    Python formats is the nearest double to the exact quotient. The
    parameter `fixed2` therefore stands for Python's `"%.2f"` applied to the
    nearest double of its argument; neither is modelled. */
module Units {
  import opened Numbers
  import opened Text

  const Suffixes: seq<string> := ["B", "KB", "MB", "GB", "TB", "PB"]

  /** Index of the last suffix: the loop never moves past it. */
  const LastUnit: nat := |Suffixes| - 1

  /** `v * 1024^k`, unfolded one multiplication by 1024 at a time. */
  function Mul1024(v: real, k: nat): real {
    if k == 0 then v else 1024.0 * Mul1024(v, k - 1)
  }

  /** `1024^k`, as the real the loop divides by. */
  function Pow1024(k: nat): real {
    Mul1024(1.0, k)
  }

  /** `1024^k` on the integers. */
  function NatPow1024(k: nat): (p: nat)
    ensures p as real == Pow1024(k)
  {
    if k == 0 then 1 else 1024 * NatPow1024(k - 1)
  }

  lemma {:induction false} Mul1024StrictMono(a: real, b: real, k: nat)
    requires a < b
    ensures Mul1024(a, k) < Mul1024(b, k)
  {
    if k > 0 {
      Mul1024StrictMono(a, b, k - 1);
    }
  }

  lemma {:induction false} Mul1024Shift(v: real, k: nat)
    ensures Mul1024(1024.0 * v, k) == Mul1024(v, k + 1)
  {
    if k > 0 {
      Mul1024Shift(v, k - 1);
    }
  }

  lemma {:induction false} Pow1024Positive(k: nat)
    ensures Pow1024(k) >= 1.0
  {
    if k > 0 {
      Pow1024Positive(k - 1);
    }
  }

  /** The unit `size` settles on for `x`: the largest `i <= LastUnit` with
      `1024^i <= x`, or 0 when `x < 1024`. */
  predicate IsUnitIndex(x: real, i: nat) {
    && i <= LastUnit
    && (i == 0 || Pow1024(i) <= x)
    && (i == LastUnit || x < Pow1024(i + 1))
  }

  /** A value divided down to a unit, and the index of that unit. */
  datatype Scaled = Scaled(value: real, unit: nat)

  /** The loop of `size` from the state `(v, i)`: while `v >= 1024` and `i`
      is not the last unit, divide `v` by 1024 and move to the next unit. */
  function Scale(v: real, i: nat): (r: Scaled)
    requires i <= LastUnit
    ensures i <= r.unit <= LastUnit
    ensures Mul1024(r.value, r.unit - i) == v
    ensures r.unit == LastUnit || r.value < 1024.0
    ensures r.unit > i ==> Pow1024(r.unit - i) <= v
    decreases LastUnit - i
  {
    if v >= 1024.0 && i < LastUnit then
      var r := Scale(v / 1024.0, i + 1);
      assert Pow1024(r.unit - i) == 1024.0 * Pow1024(r.unit - (i + 1));
      r
    else Scaled(v, i)
  }

  /** The unit and scaled value `size(x)` prints: the unit `IsUnitIndex`
      describes, and `x` divided by that unit's size. Below 1024 the loop
      does not run. */
  function UnitOf(x: real): (s: Scaled)
    ensures IsUnitIndex(x, s.unit)
    ensures Mul1024(s.value, s.unit) == x
    ensures x < 1024.0 ==> s == Scaled(x, 0)
  {
    var s := Scale(x, 0);
    assert s.unit < LastUnit ==> x < Pow1024(s.unit + 1) by {
      if s.unit < LastUnit {
        Mul1024StrictMono(s.value, 1024.0, s.unit);
        Mul1024Shift(1.0, s.unit);
      }
    }
    s
  }

  /** Dafny proves `1024^i` increasing in `i`. */
  lemma {:induction false} Pow1024Monotonic(i: nat, j: nat)
    requires i <= j
    ensures Pow1024(i) <= Pow1024(j)
    decreases j
  {
    if i < j {
      Pow1024Monotonic(i, j - 1);
      Pow1024Positive(j - 1);
    }
  }

  /** There is only one unit index for a value, so `UnitOf` picks the largest
      unit whose size the value reaches. */
  lemma UnitIndexUnique(x: real, i: nat, j: nat)
    requires IsUnitIndex(x, i) && IsUnitIndex(x, j)
    ensures i == j
  {
    if i < j {
      Pow1024Monotonic(i + 1, j);
    } else if j < i {
      Pow1024Monotonic(j + 1, i);
    }
  }

  /** The same loop on a byte count with integer division by 1024. */
  function NatUnit(n: nat, i: nat): nat
    requires i <= LastUnit
    decreases LastUnit - i
  {
    if n >= 1024 && i < LastUnit then NatUnit(n / 1024, i + 1) else i
  }

  lemma {:induction false} NatUnitBounds(n: nat, i: nat)
    requires i <= LastUnit
    ensures var u := NatUnit(n, i);
      && i <= u <= LastUnit
      && (u == i || NatPow1024(u - i) <= n)
      && (u == LastUnit || n < NatPow1024(u - i + 1))
    decreases LastUnit - i
  {
    if n >= 1024 && i < LastUnit {
      var m := n / 1024;
      var u := NatUnit(m, i + 1);
      NatUnitBounds(m, i + 1);
      assert n >= 1024 * m && n < 1024 * (m + 1);
      assert NatPow1024(u - i) == 1024 * NatPow1024(u - (i + 1));
      assert NatPow1024(u - i + 1) == 1024 * NatPow1024(u - (i + 1) + 1);
    }
  }

  /** For a byte count, the integer-division model picks the same unit as
      the division of the exact value. */
  lemma NatUnitAgrees(n: nat)
    ensures UnitOf(n as real).unit == NatUnit(n, 0)
  {
    NatUnitBounds(n, 0);
    UnitIndexUnique(n as real, UnitOf(n as real).unit, NatUnit(n, 0));
  }

  // ---------------------------------------------------------------------
  // Rendering: line 34-35.
  // ---------------------------------------------------------------------

  /** The digits before the point of a `"%.2f"` rendering, with an optional
      minus sign. */
  predicate IsIntegerPart(s: string) {
    var d := if |s| > 0 && s[0] == '-' then s[1..] else s;
    |d| > 0 && AllDigits(d)
  }

  /** The shape of a `"%.2f"` rendering of a finite value: an integer part,
      a point and exactly two digits. */
  predicate IsFixed2(f: string) {
    && |f| >= 4
    && f[|f| - 3] == '.'
    && IsDigit(f[|f| - 2])
    && IsDigit(f[|f| - 1])
    && IsIntegerPart(f[..|f| - 3])
  }

  /** `.rstrip("0").rstrip(".")` on a `"%.2f"` rendering: a zero second
      decimal goes, a zero first decimal goes with it, and a point left
      without decimals goes too. The integer part is never touched. */
  function TrimFixed(f: string): (r: string)
    ensures |r| <= |f| && r == f[..|r|]
    ensures r == [] || r[|r| - 1] != '.'
    ensures IsFixed2(f) ==>
      var ip, a, b := f[..|f| - 3], f[|f| - 2], f[|f| - 1];
      r == if a == '0' && b == '0' then ip
           else if b == '0' then ip + ['.', a]
           else f
  {
    var r1 := RStrip(f, '0');
    var r := RStrip(r1, '.');
    if IsFixed2(f) then TrimFixedCases(f); r else r
  }

  lemma TrimFixedCases(f: string)
    requires IsFixed2(f)
    ensures var ip, a, b := f[..|f| - 3], f[|f| - 2], f[|f| - 1];
      RStrip(RStrip(f, '0'), '.') ==
        if a == '0' && b == '0' then ip
        else if b == '0' then ip + ['.', a]
        else f
  {
    var n := |f|;
    var a, b := f[n - 2], f[n - 1];
    if a == '0' && b == '0' {
      TrimBothDecimals(f);
    } else if b == '0' {
      TrimSecondDecimal(f);
    } else {
      RStripUnique(f, '0', n);
      RStripUnique(f, '.', n);
    }
  }

  /** The integer part of a `"%.2f"` rendering ends in a digit. */
  lemma IntegerPartEndsInDigit(ip: string)
    requires IsIntegerPart(ip)
    ensures |ip| > 0 && IsDigit(ip[|ip| - 1])
  {
    var d := if |ip| > 0 && ip[0] == '-' then ip[1..] else ip;
    assert ip[|ip| - 1] == d[|d| - 1];
  }

  lemma TrimBothDecimals(f: string)
    requires IsFixed2(f) && f[|f| - 2] == '0' && f[|f| - 1] == '0'
    ensures RStrip(RStrip(f, '0'), '.') == f[..|f| - 3]
  {
    var n := |f|;
    RStripUnique(f, '0', n - 2);
    var r1 := f[..n - 2];
    IntegerPartEndsInDigit(f[..n - 3]);
    assert r1[n - 4] == f[n - 4];
    RStripUnique(r1, '.', n - 3);
    assert r1[..n - 3] == f[..n - 3];
  }

  lemma TrimSecondDecimal(f: string)
    requires IsFixed2(f) && f[|f| - 2] != '0' && f[|f| - 1] == '0'
    ensures RStrip(RStrip(f, '0'), '.') == f[..|f| - 3] + ['.', f[|f| - 2]]
  {
    var n := |f|;
    RStripUnique(f, '0', n - 1);
    var r1 := f[..n - 1];
    RStripUnique(r1, '.', n - 1);
    assert r1 == f[..n - 3] + ['.', f[n - 2]];
  }

  /** A number as `size` prints it: it ends in a digit, and when it has a
      point it does not end in zero. */
  predicate IsTrimmedNumber(s: string) {
    && |s| > 0
    && IsDigit(s[|s| - 1])
    && ('.' in s ==> s[|s| - 1] != '0')
  }

  /** Trimming never removes a digit before the point and always leaves a
      trimmed number. */
  lemma TrimFixedKeepsIntegerPart(f: string)
    requires IsFixed2(f)
    ensures var r := TrimFixed(f);
      && |f| - 3 <= |r|
      && r[..|f| - 3] == f[..|f| - 3]
      && IsTrimmedNumber(r)
  {
    var ip := f[..|f| - 3];
    IntegerPartEndsInDigit(ip);
    IntegerPartHasNoPoint(ip);
  }

  /** The integer part of a `"%.2f"` rendering has no point. */
  lemma IntegerPartHasNoPoint(ip: string)
    requires IsIntegerPart(ip)
    ensures '.' !in ip
  {
    var d := if |ip| > 0 && ip[0] == '-' then ip[1..] else ip;
    assert forall i :: 0 <= i < |ip| ==> ip[i] == '-' || IsDigit(ip[i]) by {
      assert forall i :: 1 <= i < |ip| ==> ip[i] == d[i - (|ip| - |d|)];
    }
  }

  /** Lines 34-35 of `size`. */
  function Render(fixed: string, unit: nat): (r: string)
    requires unit < |Suffixes|
    ensures IsFixed2(fixed) ==> IsSize(r)
  {
    var num := TrimFixed(fixed);
    if IsFixed2(fixed) then
      TrimFixedKeepsIntegerPart(fixed);
      RenderIsSize(num, unit);
      num + " " + Suffixes[unit]
    else num + " " + Suffixes[unit]
  }

  lemma RenderIsSize(num: string, unit: nat)
    requires unit < |Suffixes| && IsTrimmedNumber(num)
    ensures IsSize(num + " " + Suffixes[unit])
  {
    var r := num + " " + Suffixes[unit];
    assert r[..|r| - |Suffixes[unit]| - 1] == num;
    assert r[|r| - |Suffixes[unit]| - 1..] == " " + Suffixes[unit];
  }

  /** The output shape of `size`: a trimmed number, one space, one of the
      six unit suffixes. */
  predicate IsSize(r: string) {
    exists i :: 0 <= i < |Suffixes| && |Suffixes[i]| + 1 < |r|
      && r[|r| - |Suffixes[i]| - 1..] == " " + Suffixes[i]
      && IsTrimmedNumber(r[..|r| - |Suffixes[i]| - 1])
  }

  /** `size(nbytes)`, with `fixed2` standing for Python's `"%.2f" %`. The
      value is divided down to the unit `IsUnitIndex` describes, rendered and
      trimmed, and followed by a space and that unit's suffix. */
  function Size(nbytes: real, fixed2: real -> string): (r: string)
    ensures exists i: nat, v: real :: (IsUnitIndex(nbytes, i) && Mul1024(v, i) == nbytes
      && r == TrimFixed(fixed2(v)) + " " + Suffixes[i])
    ensures IsFixed2(fixed2(UnitOf(nbytes).value)) ==> IsSize(r)
  {
    var s := UnitOf(nbytes);
    Render(fixed2(s.value), s.unit)
  }

  /** Below 1024 nothing is divided. */
  lemma UnitBelowKilo()
    ensures UnitOf(0.0) == Scaled(0.0, 0)
    ensures UnitOf(1023.0) == Scaled(1023.0, 0)
  {
  }

  /** From 1024 on the value is counted in KB. */
  lemma UnitKilo()
    ensures UnitOf(1024.0) == Scaled(1.0, 1)
    ensures UnitOf(1536.0) == Scaled(1.5, 1)
  {
    assert Scale(1024.0, 0) == Scale(1.0, 1);
    assert Scale(1536.0, 0) == Scale(1.5, 1);
  }

  /** 1024 KB are 1 MB. */
  lemma UnitMega()
    ensures UnitOf(1048576.0) == Scaled(1.0, 2)
  {
    assert Scale(1048576.0, 0) == Scale(1024.0, 1) == Scale(1.0, 2);
  }

  /** Five times 1024^5 bytes are 5 PB. */
  lemma UnitPeta()
    ensures UnitOf(5.0 * Pow1024(5)) == Scaled(5.0, 5)
  {
    assert Pow1024(5) == 1125899906842624.0;
    assert Scale(5629499534213120.0, 0) == Scale(5497558138880.0, 1) == Scale(5368709120.0, 2);
    assert Scale(5368709120.0, 2) == Scale(5242880.0, 3) == Scale(5120.0, 4) == Scale(5.0, 5);
  }

  /** The loop stops at PB however large the value: 1024^6 bytes are
      1024 PB. */
  lemma UnitBeyondPeta()
    ensures UnitOf(Pow1024(6)) == Scaled(1024.0, 5)
  {
    assert Pow1024(6) == 1152921504606846976.0;
    assert Scale(1152921504606846976.0, 0) == Scale(1125899906842624.0, 1)
      == Scale(1099511627776.0, 2);
    assert Scale(1099511627776.0, 2) == Scale(1073741824.0, 3) == Scale(1048576.0, 4)
      == Scale(1024.0, 5);
  }

  /** Trimming examples: `"10.00"` keeps the zero before the point. */
  lemma TrimFixedExamples()
    ensures TrimFixed("10.00") == "10"
    ensures TrimFixed("0.00") == "0"
    ensures TrimFixed("1023.00") == "1023"
  {
    assert IsFixed2("10.00") && "10.00"[..2] == "10";
    assert IsFixed2("0.00") && "0.00"[..1] == "0";
    assert IsFixed2("1023.00") && "1023.00"[..4] == "1023";
  }

  /** Only zero decimals go: `"2.50"` keeps its 5 and `"2.34"` is kept
      whole. */
  lemma TrimFixedDecimalExamples()
    ensures TrimFixed("2.50") == "2.5"
    ensures TrimFixed("2.34") == "2.34"
  {
    assert IsFixed2("2.50") && "2.50"[..1] + ['.', '5'] == "2.5";
    assert IsFixed2("2.34");
  }

  /** `Size` from a known unit choice and a known trimmed rendering. */
  lemma SizeFrom(nbytes: real, fixed2: real -> string, s: Scaled, trimmed: string)
    requires UnitOf(nbytes) == s
    requires TrimFixed(fixed2(s.value)) == trimmed
    ensures Size(nbytes, fixed2) == trimmed + " " + Suffixes[s.unit]
  {
  }

  /** `size(1023)` is `"1023 B"`: below 1024 nothing is divided. */
  lemma SizeBelowKilo(fixed2: real -> string)
    requires fixed2(1023.0) == "1023.00"
    ensures Size(1023.0, fixed2) == "1023 B"
  {
    UnitBelowKilo();
    assert IsFixed2("1023.00") && "1023.00"[..4] == "1023";
    SizeFrom(1023.0, fixed2, Scaled(1023.0, 0), "1023");
  }

  /** `size(1536)` is `"1.5 KB"`. */
  lemma SizeKilo(fixed2: real -> string)
    requires fixed2(1.5) == "1.50"
    ensures Size(1536.0, fixed2) == "1.5 KB"
  {
    UnitKilo();
    assert IsFixed2("1.50") && "1.50"[..1] + ['.', '5'] == "1.5";
    SizeFrom(1536.0, fixed2, Scaled(1.5, 1), "1.5");
  }

  /** `size(5 * 1024^5)` is `"5 PB"`. */
  lemma SizePeta(fixed2: real -> string)
    requires fixed2(5.0) == "5.00"
    ensures Size(5.0 * Pow1024(5), fixed2) == "5 PB"
  {
    UnitPeta();
    assert IsFixed2("5.00") && "5.00"[..1] == "5";
    SizeFrom(5.0 * Pow1024(5), fixed2, Scaled(5.0, 5), "5");
    assert "5" + " " + Suffixes[5] == "5 PB";
  }

  /** `size(1024^6)` is `"1024 PB"`: the unit never moves past PB. */
  lemma SizeBeyondPeta(fixed2: real -> string)
    requires fixed2(1024.0) == "1024.00"
    ensures Size(Pow1024(6), fixed2) == "1024 PB"
  {
    UnitBeyondPeta();
    assert IsFixed2("1024.00") && "1024.00"[..4] == "1024";
    SizeFrom(Pow1024(6), fixed2, Scaled(1024.0, 5), "1024");
    assert "1024" + " " + Suffixes[5] == "1024 PB";
  }
}

=== FILE: wrappers.dfy ===
/** Failure-carrying values for the parsers: Python raises an exception where
    these return `None` or `Failure`. */
module Wrappers {

  datatype Option<+T> = None | Some(value: T)

  datatype Result<+R, +E> = Success(value: R) | Failure(error: E)
}
